=== FILE: README.md ===
# Katana graph storage and kernels: a Dafny model

This project models four sequential pieces of the Katana/Galois graph system
and proves properties about them.

- **Property storage of a partitioned graph (RDG)** (`prop_storage.dfy`, `rdg.dfy`).
  - Incremental writing of node and edge property columns (`WriteTable`).
  - The names and layout of the partition-boundary arrays (`MirrorPropName`, `MasterPropName`, `WritePartArrays`).
  - The routing of loaded partition arrays (`AddPartitionMetadataArray`).
  - Adding property columns while keeping the storage-info lists aligned with the tables.
  - The store/commit/load state machine (`Store`, `DoStore`, `CommitRDG`, `Make`, `DoMake`).
  - Every file write, the write group's `Finish`, the naming-service update, the metadata-file write, header reading and the topology binding are oracle functions passed in as parameters. Each returns success or an error code.
  - A store call is an oracle on the number of writes already queued and the column being written. It returns the random suffix of the file it created, or an error. The file's name is the column's name, a dash and that suffix.
- **The typed property-graph facade** (`property_graph.dfy`).
  - A CSR topology: prefix sums `outIndices` and destinations `outDests`.
  - Node and edge ranges, and `GetEdgeDest`.
  - Binding property views by name, with the failure order of `Make`.
  - The documented contract of `FindEdgeSortedByDest`, implemented as a binary search.
- **Helpers of the k-level shortest-path kernels** (`k_sssp.dfy`).
  - Cutting a node's edge range into bounded tiles.
  - The (distance, source) order of work items, and the bucket indexer.
  - `SanityCheck`, `Verify` and `MaxDist` over a property graph.
- **Sequential subgraph isomorphism** (`subgraph_iso.dfy`).
  - Candidate filtering by label and self-loop.
  - Ullmann and VF2 candidate refinement, and the join test.
  - Ullmann's backtracking search with a found-counter.
  - The matching checker.

`errors.dfy` holds the error codes and the `Result` type. `decimal.dfy` models
the decimal rendering used in partition-array names.

Behaviour of the code worth knowing, which the model keeps:

- **A second `Store` rewrites everything unless `rdgDir` already matches.** `Store` unbinds every property path when the handle's directory differs from `rdgDir`. Only `DoMake` ever sets `rdgDir`. So a second `Store` of a freshly built RDG into the same handle writes all columns again. `Rdg.StoreTwiceRewritesNoColumns` proves idempotence only when `rdgDir` equals the handle's directory.
- **A failed naming-service update is ignored.** It is logged, and the commit goes on to the metadata-file write.
- **A failed `Store` can leave the naming-service update published.** The update happens before the metadata file is written. So a failed metadata write still leaves the update published (`Rdg.PublishedBeforeDurable`).
- **A failed commit keeps the new file names.** When the write group's `Finish` fails, the RDG has already recorded the new file names in its property lists (`Rdg.FailedFinishKeepsNewPaths`).
- **A failed commit keeps the command line in the lineage.** `DoStore` adds the command line to the lineage once every write is queued, before the commit. So a store whose `Finish` or metadata write fails has still recorded it, and a retry records it a second time (`Rdg.FailedFinishKeepsNewPaths`).
- **`DoMake` on a failed partition-array load reads the error of a successful result.** `DoMake` returns `edge_result.error()` of a successful edge load. `galois::Result` is not part of this model. Reading the error of a success value may abort (throw) rather than return a code. The model writes this outcome as `ErrorCode.Unspecified`, which stands for that unseen abnormal exit, not for a code the caller receives.
- **`WriteTable` needs both `persist` and an empty path.** It writes an entry only when it is marked persistent and its path is empty. An entry with `persist = false` is never written, whatever its path.

## Model

| member | source | states |
|---|---|---|
| PropStorage.RunStores | libtsuba/src/RDG.cpp:119-131 | Column writes are issued in order. The batch succeeds iff every store call succeeds. On failure the error is that of the first failing call, and every earlier call succeeded. |
| PropStorage.DirtyIndices | libtsuba/src/RDG.cpp:120-123 | Exactly the entries that are persistent with an empty path are selected, in ascending order. |
| PropStorage.DirtyCalls | libtsuba/src/RDG.cpp:124-126 | The k-th write stores the column of the k-th selected entry. It uses the entry's name, or the schema field name when that name is empty. |
| PropStorage.AssignPathsByRank | libtsuba/src/RDG.cpp:138-146 | The walk with a path cursor leaves unselected entries unchanged. The k-th selected entry, counted in index order, gets the k-th path. |
| PropStorage.ColumnStore | libtsuba/src/RDG.cpp:126-130 | A column store succeeds iff its encoding does, and returns that error otherwise. On success the file name starts with the column's name and is non-empty. |
| PropStorage.WriteTable | libtsuba/src/RDG.cpp:112-147 | Succeeds iff every selected column is stored. A failure is the first store error, and no list is produced. On success the entries are written incrementally. With nothing selected, the input list and write group are returned unchanged. |
| PropStorage.WriteTableCleans | libtsuba/src/RDG.cpp:120-146 | After a successful write no entry of the result still needs writing. |
| PropStorage.WriteTableTwiceWritesNothing | libtsuba/src/RDG.cpp:119-136 | Writing the result of a successful write again makes no store call and returns the list unchanged. |
| PropStorage.PartPropNameShape | libtsuba/src/RDG.cpp:102-110 | A mirror name is `mirror_nodes`, then `_` and the decimal index, and never starts with `master_nodes`. A master name is `master_nodes`, then `_` and the decimal index, and never starts with `mirror_nodes`. |
| PropStorage.PartPropNamesInjective | libtsuba/src/RDG.cpp:102-110 | Distinct indices give distinct mirror names and distinct master names. |
| Decimal.ParseNatToString | libtsuba/src/RDG.cpp:104 | The decimal rendering used in the names reads back as the number it renders. |
| PropStorage.PartCalls | libtsuba/src/RDG.cpp:244-280 | Writes go to the mirror arrays under their indexed names, then the master arrays, then `local_to_global_vector` only if present. The count is #mirrors + #masters + (1 if l2g). |
| PropStorage.WritePartArrays | libtsuba/src/RDG.cpp:234-284 | On success, one entry per partition array in that order. Each entry carries its array's name, its stored path and persist = true. A failure is the first store error. |
| PropStorage.AddPartitionMetadataArray | libtsuba/src/RDG.cpp:204-220 | The mirror prefix is checked first, then the master prefix, then the exact name `local_to_global_vector`. Each routes the column to its slot. Any other name gives InvalidArgument. |
| PropStorage.PartArraysRoundTrip | libtsuba/src/RDG.cpp:204-284 | Feeding the stored partition tables back, in the order they were written, rebuilds exactly the partition arrays. |
| PropStorage.AddProperties | libtsuba/src/RDG.cpp:507-526 | Appends the columns when row counts agree (or the table is empty), otherwise InvalidArgument. Appends one entry per added column with the field name and an empty path, leaving earlier entries alone. Preserves alignment of columns with entries. |
| Rdg.AddNodeProperties | libtsuba/src/RDG.cpp:507-526 | Only the node table and node list change. The list grows by the new columns' entries. A well-formed RDG stays well-formed. |
| Rdg.AddEdgeProperties | libtsuba/src/RDG.cpp:528-547 | Only the edge table and edge list change. The list grows by the new columns' entries. A well-formed RDG stays well-formed. |
| Rdg.CommitRDG | libtsuba/src/RDG.cpp:149-200 | Succeeds iff `Finish` and the metadata write succeed; a naming-service failure does not matter. The handle advances to the next version only on success. A `Finish` failure returns that error with no barrier, update or file write. Otherwise: barrier, then update, then metadata-file write. |
| Rdg.PublishedBeforeDurable | libtsuba/src/RDG.cpp:165-199 | When the metadata write fails after a successful update, the commit fails and the handle is unchanged. The next version was nevertheless published to the naming service. |
| Rdg.EnsureTopology | libtsuba/src/RDG.cpp:290-303 | A missing topology path gets a fresh `topology` file queued and recorded. An existing path is left alone and nothing is queued. |
| Rdg.WriteAll | libtsuba/src/RDG.cpp:290-345 | Queues exactly topology (if missing) + selected node and edge columns + partition arrays + header, in that order, with the header last. Only paths change in the property lists. |
| Rdg.DoStore | libtsuba/src/RDG.cpp:286-354 | The handle advances only on success, and success means `Finish` succeeded on all queued writes. Lineage gains the command line exactly when every write was queued, even if the commit then fails. Tables, partition arrays and `rdgDir` are untouched. Commit events happen only after every write succeeded. |
| Rdg.Rebased | libtsuba/src/RDG.cpp:483-485 | A handle directory other than `rdgDir` clears every stored path and the topology path. The same directory leaves the RDG as it was. |
| Rdg.Store | libtsuba/src/RDG.cpp:467-505 | A read-only handle gives InvalidArgument and changes nothing. Success advances the version by one in the same directory. Failure leaves the handle alone. The write count matches the (rebased) RDG. The lineage gains the command line exactly when every write was queued, which any commit activity implies. Tables, parts and `rdgDir` never change, and well-formedness is kept. |
| Rdg.StoreTwiceRewritesNoColumns | libtsuba/src/RDG.cpp:483-485 | With `rdgDir` equal to the handle's directory, a second store keeps the property lists. On success it queues only the partition arrays and the header. |
| Rdg.FailedFinishKeepsNewPaths | libtsuba/src/RDG.cpp:305-347 | When `Finish` fails, the store fails with no commit events and an unchanged handle. The property lists already hold the new paths, and the lineage already holds the command line. |
| Rdg.LoadColumns | libtsuba/src/RDG.cpp:358-375 | Loading succeeds only if every file loads. It extends the table, and adds one column per file when every file holds one column. An error is InvalidArgument or some file's load error. |
| Rdg.PartArraysSurviveStoreAndLoad | libtsuba/src/RDG.cpp:376-387 | Loading back the files written for the partition arrays rebuilds the partition arrays exactly. |
| Rdg.DoMake | libtsuba/src/RDG.cpp:356-397 | Loads nodes, then edges, then partition arrays, then binds topology. A node failure returns its error, and an edge failure after a good node load returns its error. A partition failure after good node and edge loads returns Unspecified. A bind failure after good loads returns the bind error. Success sets `rdgDir` to the directory with empty lineage. |
| Rdg.DoMakeWellFormed | libtsuba/src/RDG.cpp:358-375 | When every property file holds one column, a made RDG has tables aligned with their property lists. |
| Rdg.Make | libtsuba/src/RDG.cpp:399-441 | A non-empty RDG whose host count differs from the communicator's gives InvalidArgument. Otherwise: read the header, then prune, then DoMake, returning the first error. |
| Rdg.MakeFromHandle | libtsuba/src/RDG.cpp:456-465 | A handle without read permission gives InvalidArgument. Otherwise it behaves as Make on the handle's metadata. |
| PropertyGraph.Edges | libgalois/include/galois/graphs/PropertyGraph.h:146-150 | A node's edge range lies within the edges, ends at its prefix sum, and has its out-degree as length. |
| PropertyGraph.EdgeRangesTile | libgalois/include/galois/graphs/PropertyGraph.h:146-167 | Consecutive nodes' ranges tile `[0, num_edges)`. The first starts at 0, each ends where the next begins, and the last ends at the edge count. |
| PropertyGraph.EdgeHasOneSource | libgalois/include/galois/graphs/PropertyGraph.h:146-167 | Every edge lies in exactly one node's range. |
| PropertyGraph.Nodes | libgalois/include/galois/graphs/PropertyGraph.h:58-64 | Node iteration visits `begin..end` in order, where `end` is the node count cut to a 32-bit node id. It visits `size` nodes iff the count fits in 32 bits, and never more. For such a graph it is empty iff the graph is empty. |
| PropertyGraph.GetEdgeDest | libgalois/include/galois/graphs/PropertyGraph.h:132-135 | An edge's destination is a node of the graph. |
| PropertyGraph.FindColumn | libgalois/include/galois/graphs/PropertyGraph.h:202-222 | Finds the first column with the given name, or reports that none has it. The first-match rule for duplicate names is an assumption about the lookup (see Left out). |
| PropertyGraph.MakeViews | libgalois/include/galois/graphs/PropertyGraph.h:207-221 | Views bind iff every requested property binds. The error is that of the first property that fails to bind. |
| PropertyGraph.Make | libgalois/include/galois/graphs/PropertyGraph.h:202-222 | A node-view failure is returned without binding edges. Otherwise an edge-view failure is returned. Success needs both, and binds each view to the named column of the right type. |
| PropertyGraph.MakeAll | libgalois/include/galois/graphs/PropertyGraph.h:224-230 | Binds every field by its own name. When field names are distinct, it succeeds iff the declared types match the schema fields in order, and then view `p` binds column `p`. |
| PropertyGraph.OwnNamesBind | libgalois/include/galois/graphs/PropertyGraph.h:224-230 | With distinct field names, binding by the schema's own names succeeds iff the declared types match the fields in order, and binds each position to its own column. |
| PropertyGraph.MakeAllErrors | libgalois/include/galois/graphs/PropertyGraph.h:224-230 | Binding every field by its own name can fail only with a type mismatch or a missing position, never with a missing name, under the first-match lookup. |
| PropertyGraph.FindColumnDistinct | libgalois/include/galois/graphs/PropertyGraph.h:202-222 | When the schema's field names are distinct, looking up a field's own name finds exactly that field's column, so any lookup by name agrees with the first-match rule. |
| PropertyGraph.MadeGraphReadsNamedColumns | libgalois/include/galois/graphs/PropertyGraph.h:74-124 | `GetData` and `GetEdgeData` on a made graph read the value of the named column. |
| PropertyGraph.FindEdgeSortedByDest | libgalois/include/galois/graphs/PropertyGraph.h:184-200 | On a node whose edges are sorted by destination, returns an edge of that node to the target, or `edge_end` exactly when there is none. |
| KSssp.KeyLessStrictWeakOrder | lonestar/liblonestar/include/Lonestar/K_SSSP.h:47-51 | The comparator is lexicographic on (distance, source) and is a strict weak order. Two items are unordered iff they agree on both keys. |
| KSssp.RequestLessStrictWeakOrder | lonestar/liblonestar/include/Lonestar/K_SSSP.h:47-51 | The request order is irreflexive, transitive and asymmetric. Incomparability is equality of distance and source. |
| KSssp.TileLessStrictWeakOrder | lonestar/liblonestar/include/Lonestar/K_SSSP.h:71-74 | The same strict weak order holds for edge tiles. |
| KSssp.Truncate32 | lonestar/liblonestar/include/Lonestar/K_SSSP.h:58-61 | Storing in an `unsigned int` gives a value below 2^32, and leaves a value that already fits unchanged. |
| KSssp.Index | lonestar/liblonestar/include/Lonestar/K_SSSP.h:54-62 | A work item's bucket index, its distance shifted right and cut to `unsigned int`, always fits in 32 bits. |
| KSssp.ShiftRightMonotone | lonestar/liblonestar/include/Lonestar/K_SSSP.h:58-61 | Shifting right by the same amount never reverses the order of two distances. |
| KSssp.IndexMonotone | lonestar/liblonestar/include/Lonestar/K_SSSP.h:54-62 | A work item ordered before another never goes to a later bucket, while the later item's shifted distance fits in 32 bits. |
| KSssp.IndexWrapsPast32Bits | lonestar/liblonestar/include/Lonestar/K_SSSP.h:58-61 | Past 32 bits the `unsigned int` truncation breaks monotonicity: an item ordered before another goes to a later bucket. |
| KSssp.CeilDivIsCeiling | lonestar/liblonestar/include/Lonestar/K_SSSP.h:91-102 | The tile count is the rounded-up quotient of range length by tile size. |
| KSssp.PushEdgeTiles | lonestar/liblonestar/include/Lonestar/K_SSSP.h:87-103 | Tiles are contiguous and in order, and span `[beg, end)`. Each is non-empty and at most `EdgeTileSize` long. Each carries the maker's fields. There are ceil(len / size) of them: none for an empty range, one up to the tile size. |
| KSssp.TilingCoversRange | lonestar/liblonestar/include/Lonestar/K_SSSP.h:87-103 | Concatenating the tiles' edge ids gives exactly `beg, beg+1, ..., end-1`. |
| KSssp.PushNodeEdgeTiles | lonestar/liblonestar/include/Lonestar/K_SSSP.h:105-112 | A node's tiles cover exactly its edge range, in ceil(out-degree / size) bounded tiles. |
| KSssp.SanityCheck | lonestar/liblonestar/include/Lonestar/K_SSSP.h:188-225 | Flags a node iff it is reached and some out-edge leads to a node whose label exceeds its label plus the edge weight. The weight is 1 when weights are not used. |
| KSssp.Verify | lonestar/liblonestar/include/Lonestar/K_SSSP.h:242-280 | Accepts iff the source has distance 0 and no node is flagged. Unreached nodes are counted but never cause rejection. |
| KSssp.MaxDist | lonestar/liblonestar/include/Lonestar/K_SSSP.h:227-240 | The maximum label over nodes not at infinity; none when every node is at infinity. |
| SubgraphIso.FilterCandidatesOf | exp/apps/subgraphisomorphism/SubgraphIsomorphism.cpp:481-500 | The candidates are exactly the data nodes with the query node's label and, when it has a self-loop, a self-loop. They come in strictly ascending order, so VF2's sort (lines 163-183) leaves them unchanged. |
| SubgraphIso.FilterCandidates | exp/apps/subgraphisomorphism/SubgraphIsomorphism.cpp:503-508 | Every query node gets its sorted list of accepted data nodes. The result is true iff some list is empty. |
| SubgraphIso.CompleteMatchingNeedsCandidates | exp/apps/subgraphisomorphism/SubgraphIsomorphism.cpp:733-740 | A complete consistent matching gives every query node an accepted data node. So stopping on an empty candidate list loses no matching. |
| SubgraphIso.KeepWhere | exp/apps/subgraphisomorphism/SubgraphIsomorphism.cpp:521-528 | Keeps exactly the elements that pass the test, in their original order. A strictly ascending input stays strictly ascending. |
| SubgraphIso.UllmannRefine | exp/apps/subgraphisomorphism/SubgraphIsomorphism.cpp:516-529 | Keeps exactly the candidates whose out- and in-degree both reach the query node's, in original order. |
| SubgraphIso.CountNeighbors | exp/apps/subgraphisomorphism/SubgraphIsomorphism.cpp:209-219 | Counts the neighbour entries in the frontier and those elsewhere that are not matched. |
| SubgraphIso.CountsBounded | exp/apps/subgraphisomorphism/SubgraphIsomorphism.cpp:209-219 | The two counts together never exceed the degree. |
| SubgraphIso.QueryNodeCounts | exp/apps/subgraphisomorphism/SubgraphIsomorphism.cpp:222-230 | The query node's frontier and other-unmatched neighbour counts. For directed graphs, also its in-degree and its in-neighbour counts. |
| SubgraphIso.Vf2Check | exp/apps/subgraphisomorphism/SubgraphIsomorphism.cpp:235-273 | A frontier node passes iff all of these hold: it is a candidate; its out-degree reaches the query node's; its frontier and other-unmatched neighbour counts reach the query's; for directed graphs, the same holds for in-edges. |
| SubgraphIso.Vf2Refine | exp/apps/subgraphisomorphism/SubgraphIsomorphism.cpp:221-275 | The refined list holds exactly the frontier nodes that pass the per-node test, in frontier order. |
| SubgraphIso.IsJoinable | exp/apps/subgraphisomorphism/SubgraphIsomorphism.cpp:531-553 | Accepts iff, for every matched pair, the data node differs; the query edge from the new node has its data edge; and, for directed graphs, so has the query edge into it. |
| SubgraphIso.ExtendPartialIso | exp/apps/subgraphisomorphism/SubgraphIsomorphism.cpp:583-591 | Extending an ordered consistent matching by a joinable candidate of the next query node gives an ordered consistent matching. |
| SubgraphIso.NextQueryNode | exp/apps/subgraphisomorphism/SubgraphIsomorphism.cpp:510-514 | The next query node is a node of the query graph while the matching is incomplete. |
| SubgraphIso.DoSearch | exp/apps/subgraphisomorphism/SubgraphIsomorphism.cpp:567-599 | Does nothing once the counter reaches `kFound`. A complete matching is reported and counted. Every report is a complete, ordered, consistent extension of the entry matching whose later pairs pass refinement, and the count never passes `kFound`. Finishing below `kFound` restores the matching and means every such extension was reported. |
| SubgraphIso.SearchCandidates | exp/apps/subgraphisomorphism/SubgraphIsomorphism.cpp:583-598 | The loop over the refined candidates stops once the count reaches `kFound`. Below it, every extension whose next pair uses a refined candidate was reported. |
| SubgraphIso.SearchCandidate | exp/apps/subgraphisomorphism/SubgraphIsomorphism.cpp:584-597 | A candidate that does not join adds nothing. Otherwise the pair is pushed, searched from and popped again below `kFound`. Below `kFound`, every extension using that candidate next was reported. |
| SubgraphIso.ExtensionNext | exp/apps/subgraphisomorphism/SubgraphIsomorphism.cpp:578-591 | The next pair of an extension is the next query node with a refined candidate that joins every earlier pair. |
| SubgraphIso.SubgraphSearch | exp/apps/subgraphisomorphism/SubgraphIsomorphism.cpp:610-624 | Seeds one search per candidate of the first query node. Reports at most `kFound` matchings, each complete, consistent and reachable from a seed. Ending below `kFound` means every reachable matching was reported. |
| SubgraphIso.ConsistentMatchingPassesRefinement | exp/apps/subgraphisomorphism/SubgraphIsomorphism.cpp:516-529 | Without parallel query edges (and with symmetric graphs when undirected), every pair of a complete consistent matching passes Ullmann's degree test. |
| SubgraphIso.ConsistentMatchingIsSearched | exp/apps/subgraphisomorphism/SubgraphIsomorphism.cpp:503-624 | With complete candidate lists and no parallel query edges, every complete consistent matching is reachable by the search. So a search ending below `kFound` reported all of them. |
| SubgraphIso.ParallelQueryEdgePrunesMatching | exp/apps/subgraphisomorphism/SubgraphIsomorphism.cpp:516-529 | With two parallel query edges, the degree test rejects a pair of a consistent matching, so the hypothesis above is needed. |
| SubgraphIso.VerifyMatching | exp/apps/subgraphisomorphism/SubgraphIsomorphism.cpp:628-675 | Fails iff some pair has mismatched labels, two query nodes share a data node, one query node has two data nodes, or some query edge lacks its data edge. |
| SubgraphIso.ReportedMatchingsVerify | exp/apps/subgraphisomorphism/SubgraphIsomorphism.cpp:628-675 | Every matching the search can report passes the checker: always for directed graphs, and for undirected ones when both graphs are symmetric. |

## Left out

- Arrow/Parquet encoding (`DoStoreArrowArrayAtName`, writer properties, `arrow::Table::Make`) is a foreign library. A column store is an oracle returning a random file-name suffix or an error. `ArrowError` from the conversion is one of its possible errors.
- Asynchronous writes, `comm->Barrier()`, `OneHostOnly`, the naming service, `FileStore`, the memory-mapped topology `Bind`, header JSON reading and writing, and `PrunePropsTo` are I/O, coordination or code that is not part of this model. Each is an ok/error oracle. The barrier is an event in the commit trace.
- `TSUBA_PTP` fault-injection points are not modelled, because they only abort the process.
- `NextVersion`, `IsEmptyRDG`, `UnbindFromStorage`, `RandFile`, `Uri::Join`, `AddTables` and `RDGCore::AddNodeProperties` are not part of this model. They follow the documented behaviour:
  - the version grows by one in the same directory;
  - an RDG is empty when it has no hosts;
  - unbinding clears every path and the topology path;
  - a random file name is the prefix, a dash and a fresh suffix;
  - a load adds one table per storage entry in order;
  - adding columns checks the row count.
- `PropStorageInfo` defaults to `persist = false`, which is what the added entries carry. Its definition is not part of this model.
- Rdg.Store: the topology written from a `FileFrame` is a flag. The queued-write count is stated only for stores without one.
- `RemoveNodeProperty`, `MarkAllPropertiesPersistent`, `Validate`, `Equals` and the accessors are outside the modelled core.
- PropertyGraph: the internals of `PropertyViews`, `PropertyFileGraph` and the topology's `edge_range` are not part of this model. View binding is a lookup by name that can fail: InvalidArgument for a missing position, PropertyNotFound for a missing name, TypeError for the wrong type. Property values are integers.
- PropertyGraph.FindColumn: the views' by-name lookup is not part of this model. First-match resolution of a duplicate field name, and the per-position error order (InvalidArgument, then PropertyNotFound, then TypeError), are assumptions about it. A lookup that reports an ambiguous name as not found would make `MakeAllErrors` fail for schemas with duplicate names; for distinct names `FindColumnDistinct` shows the rule makes no difference.
- PropertyGraph.FindEdgeSortedByDest: the body is not part of this model. The method implements the documented contract with a binary search.
- KSssp.Index: requires a non-negative distance. Shifting a negative signed distance right is implementation-defined in C++, and distances are never negative.
- KSssp: `Distance` is an unbounded integer with the infinity of a 32-bit unsigned instantiation. `sd + ew` is computed without wrap-around; floating-point distances are left out.
- KSssp.MaxDist: the reducer's identity (printed when no node is reached) is modelled as `None`.
- `PushEdgeTilesParallel`, `do_all`, `on_each`, `GReduce*` and atomic counters are parallel machinery. The model is sequential.
- SubgraphIso: VF2's own backtracking search (its `nextQueryNode` and its `doSearch`, which update and restore the frontier and matched sets) is outside the modelled core. VF2 refinement is modelled over a given frontier and matched state.
- SubgraphIso.Vf2Check: the binary search over the sorted candidate list is modelled as a membership test.
- SubgraphIso.SubgraphSearch: completeness holds for query graphs without parallel edges (`ConsistentMatchingIsSearched`). With parallel query edges the degree test can prune a valid matching (`ParallelQueryEdgePrunesMatching`), so nothing is promised there.
- SubgraphIso.SubgraphSearch: the parallel `for_each` over seeds is a sequential loop that stops when the counter reaches `kFound`. `currentlyFound` is a plain counter.
- `printGraph`, `initializeGraph` (random labels, edge sorting), `reportMatchings`, `run`, `main`, command-line options and logging are I/O or set-up.

=== FILE: decimal.dfy ===
/** Decimal rendering of unsigned integers, as `std::to_string` produces it
    for the partition-array column names, and its inverse. */
module Decimal {

  predicate IsDigit(c: char) {
    '0' <= c <= '9'
  }

  function DigitChar(d: nat): (c: char)
    requires d < 10
    ensures IsDigit(c)
  {
    ('0' as int + d) as char
  }

  function DigitValue(c: char): (d: nat)
    requires IsDigit(c)
    ensures d < 10
  {
    c as int - '0' as int
  }

  /** The shortest decimal numeral of `n`: no sign, no leading zero. */
  function NatToString(n: nat): (s: string)
    ensures |s| > 0
    ensures forall i :: 0 <= i < |s| ==> IsDigit(s[i])
    ensures s[0] == '0' <==> n == 0
    ensures |s| == 1 <==> n < 10
    decreases n
  {
    if n < 10 then [DigitChar(n)] else NatToString(n / 10) + [DigitChar(n % 10)]
  }

  /** Reads a string of digits back as the number it denotes. */
  function ParseDecimal(s: string): nat
    requires forall i :: 0 <= i < |s| ==> IsDigit(s[i])
  {
    if |s| == 0 then 0 else ParseDecimal(s[..|s| - 1]) * 10 + DigitValue(s[|s| - 1])
  }

  /** Parsing undoes rendering. */
  lemma {:induction false} ParseNatToString(n: nat)
    ensures ParseDecimal(NatToString(n)) == n
    decreases n
  {
    var s := NatToString(n);
    if n < 10 {
      assert s == [DigitChar(n)];
      assert s[..0] == [];
    } else {
      var p := NatToString(n / 10);
      assert s == p + [DigitChar(n % 10)];
      assert s[..|s| - 1] == p;
      ParseNatToString(n / 10);
    }
  }

  /** Distinct numbers render to distinct numerals. */
  lemma NatToStringInjective(a: nat, b: nat)
    requires NatToString(a) == NatToString(b)
    ensures a == b
  {
    ParseNatToString(a);
    ParseNatToString(b);
  }
}

=== FILE: errors.dfy ===
/** Error codes and the failure-compatible result type shared by every module.
    The storage layer reports failures as an explicit result value instead of
    throwing; `Result<T>` is that value and `Status` is the `Result<void>` case. */
module Errors {

  /** The error codes the modelled code produces itself, plus `Other` for codes
      that come back from collaborators (blob store, naming service, header
      parsing) whose exact values the model does not track. */
  datatype ErrorCode =
    | InvalidArgument
    | ArrowError
    | PropertyNotFound
    | TypeError
      /** The outcome of reading the error accessor of a result that holds
          no error. The result type's definition is not part of this model;
          that read may well abort (throw) rather than yield a code, so this
          stands for an abnormal exit of unseen behaviour, not for a code the
          caller receives. */
    | Unspecified
    | Other(code: nat)

  datatype Result<+T> = Ok(value: T) | Err(error: ErrorCode) {

    predicate IsFailure() {
      Err?
    }

    function PropagateFailure<U>(): Result<U>
      requires Err?
    {
      Err(error)
    }

    function Extract(): T
      requires Ok?
    {
      value
    }
  }

  datatype Option<+T> = None | Some(value: T)

  /** The result of an operation that returns no value on success. */
  type Status = Result<()>

  const Success: Status := Ok(())
}

=== FILE: k_sssp.dfy ===
/** Helpers of the k-level shortest-path kernels
    (lonestar/liblonestar/include/Lonestar/K_SSSP.h): splitting a node's edge
    range into bounded tiles, the (distance, source) ordering of work items,
    the bucket indexer, and the check of a computed distance labelling.
    Distances are integers with the infinity of a 32-bit unsigned instantiation;
    the path a work item points to is an opaque id. */
module KSssp {
  import opened Errors
  import opened PropertyGraph

  /** The distance of a node not reached yet: a quarter of the largest value,
      so that adding an edge weight cannot overflow. */
  const DistInfinity: int := Uint32Max / 4

  // ---------------------------------------------------------------------------
  // Work items and their order

  datatype UpdateRequest = UpdateRequest(src: nat, distance: int, path: nat)

  /** A source node, its distance, its path, and a sub-range `[beg, end)` of its
      edges. */
  datatype SrcEdgeTile = SrcEdgeTile(src: nat, distance: int, path: nat, beg: nat, end: nat)

  /** Builds the tiles of one source node. */
  datatype SrcEdgeTileMaker = SrcEdgeTileMaker(src: nat, distance: int, path: nat) {
    function Make(beg: nat, end: nat): (t: SrcEdgeTile)
      ensures t.src == src && t.distance == distance && t.path == path
      ensures t.beg == beg && t.end == end
    {
      SrcEdgeTile(src, distance, path, beg, end)
    }
  }

  /** Smaller distance first; equal distances are ordered by source node. */
  predicate KeyLess(d1: int, s1: nat, d2: int, s2: nat) {
    if d1 == d2 then s1 < s2 else d1 < d2
  }

  predicate RequestLess(a: UpdateRequest, b: UpdateRequest) {
    KeyLess(a.distance, a.src, b.distance, b.src)
  }

  predicate TileLess(a: SrcEdgeTile, b: SrcEdgeTile) {
    KeyLess(a.distance, a.src, b.distance, b.src)
  }

  /** The order is the lexicographic order on (distance, source) pairs, and
      it is a strict weak order: irreflexive, transitive, and two items are
      unordered exactly when they agree on both keys (an equivalence). */
  lemma KeyLessStrictWeakOrder(d1: int, s1: nat, d2: int, s2: nat, d3: int, s3: nat)
    ensures KeyLess(d1, s1, d2, s2) <==> d1 < d2 || (d1 == d2 && s1 < s2)
    ensures !KeyLess(d1, s1, d1, s1)
    ensures KeyLess(d1, s1, d2, s2) && KeyLess(d2, s2, d3, s3) ==> KeyLess(d1, s1, d3, s3)
    ensures KeyLess(d1, s1, d2, s2) ==> !KeyLess(d2, s2, d1, s1)
    ensures !KeyLess(d1, s1, d2, s2) && !KeyLess(d2, s2, d1, s1) <==> d1 == d2 && s1 == s2
  {
  }

  lemma RequestLessStrictWeakOrder(a: UpdateRequest, b: UpdateRequest, c: UpdateRequest)
    ensures !RequestLess(a, a)
    ensures RequestLess(a, b) && RequestLess(b, c) ==> RequestLess(a, c)
    ensures RequestLess(a, b) ==> !RequestLess(b, a)
    ensures !RequestLess(a, b) && !RequestLess(b, a) <==> a.distance == b.distance && a.src == b.src
  {
    KeyLessStrictWeakOrder(a.distance, a.src, b.distance, b.src, c.distance, c.src);
    KeyLessStrictWeakOrder(a.distance, a.src, a.distance, a.src, c.distance, c.src);
  }

  lemma TileLessStrictWeakOrder(a: SrcEdgeTile, b: SrcEdgeTile, c: SrcEdgeTile)
    ensures !TileLess(a, a)
    ensures TileLess(a, b) && TileLess(b, c) ==> TileLess(a, c)
    ensures TileLess(a, b) ==> !TileLess(b, a)
    ensures !TileLess(a, b) && !TileLess(b, a) <==> a.distance == b.distance && a.src == b.src
  {
    KeyLessStrictWeakOrder(a.distance, a.src, b.distance, b.src, c.distance, c.src);
    KeyLessStrictWeakOrder(a.distance, a.src, a.distance, a.src, c.distance, c.src);
  }

  // ---------------------------------------------------------------------------
  // Bucket indexer

  /** `x >> n`: `n` halvings, each rounding down. For a shift at least as
      wide as the distance type C++ leaves the result undefined; here it is
      the value the halvings give, 0 once they run out of bits. */
  function ShiftRight(x: nat, n: nat): nat {
    if n == 0 then x else ShiftRight(x / 2, n - 1)
  }

  /** The bucket of a work item: its distance shifted right by `shift`,
      truncated to 32 bits as the `unsigned int` result is. */
  function Index(req: UpdateRequest, shift: nat): (i: nat)
    requires req.distance >= 0
    ensures i <= Uint32Max
  {
    Truncate32(ShiftRight(req.distance, shift))
  }

  /** The value of an `unsigned int` holding `x`: its low 32 bits. */
  function Truncate32(x: nat): (t: nat)
    ensures t <= Uint32Max
    ensures x <= Uint32Max ==> t == x
  {
    SmallModIdentity(x, Uint32Max + 1);
    x % (Uint32Max + 1)
  }

  lemma SmallModIdentity(x: nat, m: nat)
    requires m > 0
    ensures x < m ==> x % m == x
  {
  }

  lemma {:induction false} ShiftRightMonotone(a: nat, b: nat, n: nat)
    requires a <= b
    ensures ShiftRight(a, n) <= ShiftRight(b, n)
  {
    if n > 0 {
      ShiftRightMonotone(a / 2, b / 2, n - 1);
    }
  }

  /** The indexer respects the work-item order: an item ordered before
      another never goes to a later bucket, as long as the shifted distance
      fits in the 32-bit index. */
  lemma IndexMonotone(a: UpdateRequest, b: UpdateRequest, shift: nat)
    requires 0 <= a.distance && RequestLess(a, b) && ShiftRight(b.distance, shift) <= Uint32Max
    ensures Index(a, shift) <= Index(b, shift)
  {
    ShiftRightMonotone(a.distance, b.distance, shift);
  }

  /** Without that bound the truncation can send a later item to an earlier
      bucket. The distance 2^32 used here needs a `Distance` type wider than
      32 bits; a 32-bit distance shifted by a valid amount always fits. */
  lemma IndexWrapsPast32Bits()
    ensures var a, b := UpdateRequest(0, Uint32Max, 0), UpdateRequest(0, Uint32Max + 1, 0);
      RequestLess(a, b) && Index(b, 0) < Index(a, 0)
  {
  }

  // ---------------------------------------------------------------------------
  // Edge tiles

  /** `tiles` are contiguous, in order, and together span `[beg, end)`. */
  predicate Tiling(tiles: seq<SrcEdgeTile>, beg: nat, end: nat) {
    && (|tiles| == 0 ==> beg == end)
    && (|tiles| > 0 ==> tiles[0].beg == beg && tiles[|tiles| - 1].end == end)
    && (forall k :: 0 <= k < |tiles| - 1 ==> tiles[k].end == tiles[k + 1].beg)
  }

  /** Every tile is non-empty and at most `size` edges long. */
  predicate Bounded(tiles: seq<SrcEdgeTile>, size: nat) {
    forall k :: 0 <= k < |tiles| ==> tiles[k].beg < tiles[k].end <= tiles[k].beg + size
  }

  /** Every tile was built by `f`. */
  predicate MadeBy(tiles: seq<SrcEdgeTile>, f: SrcEdgeTileMaker) {
    forall k :: 0 <= k < |tiles| ==> tiles[k].src == f.src && tiles[k].distance == f.distance && tiles[k].path == f.path
  }

  /** The number of tiles of at most `size` edges a range of `n` edges needs. */
  function CeilDiv(n: nat, size: nat): nat
    requires size > 0
    decreases n
  {
    if n == 0 then 0 else if n <= size then 1 else 1 + CeilDiv(n - size, size)
  }

  /** CeilDiv is the rounded-up quotient: enough tiles, and one fewer would
      not be. */
  lemma {:induction false} CeilDivIsCeiling(n: nat, size: nat)
    requires size > 0
    ensures CeilDiv(n, size) * size >= n
    ensures n > 0 ==> (CeilDiv(n, size) - 1) * size < n
    ensures n == 0 <==> CeilDiv(n, size) == 0
    decreases n
  {
    if n > size {
      CeilDivIsCeiling(n - size, size);
      assert CeilDiv(n, size) * size == CeilDiv(n - size, size) * size + size;
      assert (CeilDiv(n, size) - 1) * size == CeilDiv(n - size, size) * size;
    }
  }

  /** Splits `[beg, end)` into tiles of `tileSize` edges, the last one
      possibly shorter, and builds each with `f`. */
  method PushEdgeTiles(beg: nat, end: nat, tileSize: nat, f: SrcEdgeTileMaker) returns (tiles: seq<SrcEdgeTile>)
    requires beg <= end && tileSize > 0
    ensures Tiling(tiles, beg, end)
    ensures Bounded(tiles, tileSize)
    ensures MadeBy(tiles, f)
    ensures |tiles| == CeilDiv(end - beg, tileSize)
  {
    tiles := [];
    var b := beg;
    if end - b > tileSize {
      while b + tileSize < end
        invariant beg <= b <= end
        invariant Tiling(tiles, beg, b) && Bounded(tiles, tileSize) && MadeBy(tiles, f)
        invariant |tiles| + CeilDiv(end - b, tileSize) == CeilDiv(end - beg, tileSize)
        decreases end - b
      {
        var ne := b + tileSize;
        tiles := tiles + [f.Make(b, ne)];
        b := ne;
      }
    }
    if end - b > 0 {
      tiles := tiles + [f.Make(b, end)];
    }
  }

  /** The edge ids the tiles cover, in tile order. */
  function Covered(tiles: seq<SrcEdgeTile>): seq<nat>
    decreases |tiles|
  {
    if |tiles| == 0 then []
    else Range(tiles[0].beg, tiles[0].end) + Covered(tiles[1..])
  }

  function Range(lo: nat, hi: nat): (r: seq<nat>)
    ensures |r| == if lo <= hi then hi - lo else 0
    ensures forall k :: 0 <= k < |r| ==> r[k] == lo + k
  {
    if lo < hi then seq(hi - lo, k requires 0 <= k < hi - lo => lo + k) else []
  }

  lemma RangeSplit(lo: nat, mid: nat, hi: nat)
    requires lo <= mid <= hi
    ensures Range(lo, mid) + Range(mid, hi) == Range(lo, hi)
  {
  }

  /** A tiling of non-empty tiles visits every edge of `[beg, end)` exactly
      once, in order. */
  lemma {:induction false} TilingCoversRange(tiles: seq<SrcEdgeTile>, beg: nat, end: nat)
    requires Tiling(tiles, beg, end)
    requires forall k :: 0 <= k < |tiles| ==> tiles[k].beg < tiles[k].end
    ensures beg <= end && Covered(tiles) == Range(beg, end)
    decreases |tiles|
  {
    if |tiles| > 0 {
      var rest := tiles[1..];
      var mid := tiles[0].end;
      assert Tiling(rest, mid, end);
      TilingCoversRange(rest, mid, end);
      RangeSplit(beg, mid, end);
    }
  }

  /** The tiles of one node's whole edge range. */
  method PushNodeEdgeTiles(g: Graph, src: nat, tileSize: nat, f: SrcEdgeTileMaker) returns (tiles: seq<SrcEdgeTile>)
    requires ValidGraph(g) && src < NumNodes(g.file.topology) && tileSize > 0
    ensures Covered(tiles) == Range(EdgeBegin(g.file.topology, src), EdgeEnd(g.file.topology, src))
    ensures Bounded(tiles, tileSize) && MadeBy(tiles, f)
    ensures |tiles| == CeilDiv(OutDegree(g.file.topology, src), tileSize)
  {
    var t := g.file.topology;
    tiles := PushEdgeTiles(EdgeBegin(t, src), EdgeEnd(t, src), tileSize, f);
    TilingCoversRange(tiles, EdgeBegin(t, src), EdgeEnd(t, src));
  }

  // ---------------------------------------------------------------------------
  // Checking a distance labelling

  /** The weight an edge contributes: its stored weight, or 1 when the kernel
      ignores weights. */
  function EdgeWeight(g: Graph, weightProp: nat, useEdgeWt: bool, e: nat): int
    requires ValidGraph(g) && e < NumEdges(g.file.topology)
    requires useEdgeWt ==> weightProp < |g.edgeView|
  {
    if useEdgeWt then GetEdgeData(g, weightProp, e) else 1
  }

  /** Edge `e` of `node` shows the labelling is not a shortest-path bound:
      `node` is reached and its label plus the edge weight is below the
      destination's label. */
  predicate EdgeViolates(g: Graph, distProp: nat, weightProp: nat, useEdgeWt: bool, node: nat, e: nat)
    requires ValidGraph(g) && distProp < |g.nodeView| && (useEdgeWt ==> weightProp < |g.edgeView|)
    requires node < NumNodes(g.file.topology) && e < NumEdges(g.file.topology)
  {
    && GetData(g, distProp, node) != DistInfinity
    && GetData(g, distProp, GetEdgeDest(g, e)) > GetData(g, distProp, node) + EdgeWeight(g, weightProp, useEdgeWt, e)
  }

  predicate NodeViolates(g: Graph, distProp: nat, weightProp: nat, useEdgeWt: bool, node: nat)
    requires ValidGraph(g) && distProp < |g.nodeView| && (useEdgeWt ==> weightProp < |g.edgeView|)
    requires node < NumNodes(g.file.topology)
  {
    exists e :: EdgeBegin(g.file.topology, node) <= e < EdgeEnd(g.file.topology, node)
      && EdgeViolates(g, distProp, weightProp, useEdgeWt, node, e)
  }

  /** Scans every edge of `node` (it does not stop at the first bad one) and
      reports whether any violates the labelling. */
  method SanityCheck(g: Graph, distProp: nat, weightProp: nat, useEdgeWt: bool, node: nat) returns (wrong: bool)
    requires ValidGraph(g) && distProp < |g.nodeView| && (useEdgeWt ==> weightProp < |g.edgeView|)
    requires node < NumNodes(g.file.topology)
    ensures wrong <==> NodeViolates(g, distProp, weightProp, useEdgeWt, node)
  {
    var t := g.file.topology;
    var sd := GetData(g, distProp, node);
    if sd == DistInfinity {
      return false;
    }
    wrong := false;
    var e := EdgeBegin(t, node);
    while e < EdgeEnd(t, node)
      invariant EdgeBegin(t, node) <= e <= EdgeEnd(t, node)
      invariant wrong <==> exists k :: EdgeBegin(t, node) <= k < e && EdgeViolates(g, distProp, weightProp, useEdgeWt, node, k)
      decreases EdgeEnd(t, node) - e
    {
      var dd := GetData(g, distProp, GetEdgeDest(g, e));
      var ew := EdgeWeight(g, weightProp, useEdgeWt, e);
      assert EdgeViolates(g, distProp, weightProp, useEdgeWt, node, e) <==> dd > sd + ew;
      if dd > sd + ew {
        wrong := true;
      }
      e := e + 1;
    }
  }

  /** The number of nodes among the first `n` whose label is at least infinity. */
  function Unreached(g: Graph, distProp: nat, n: nat): nat
    requires ValidGraph(g) && distProp < |g.nodeView| && n <= NumNodes(g.file.topology)
  {
    if n == 0 then 0
    else Unreached(g, distProp, n - 1) + (if GetData(g, distProp, n - 1) >= DistInfinity then 1 else 0)
  }

  /** Accepts a labelling when the source is at distance 0 and no edge of a
      reached node violates it. Unreached nodes are counted and reported only
      as a warning: they never make the check fail. */
  method Verify(g: Graph, distProp: nat, weightProp: nat, useEdgeWt: bool, source: nat)
    returns (ok: bool, notVisited: nat)
    requires ValidGraph(g) && distProp < |g.nodeView| && (useEdgeWt ==> weightProp < |g.edgeView|)
    requires source < NumNodes(g.file.topology)
    ensures ok <==>
      && GetData(g, distProp, source) == 0
      && forall n :: 0 <= n < NumNodes(g.file.topology) ==> !NodeViolates(g, distProp, weightProp, useEdgeWt, n)
    ensures GetData(g, distProp, source) == 0 ==> notVisited == Unreached(g, distProp, NumNodes(g.file.topology))
  {
    var count := NumNodes(g.file.topology);
    if GetData(g, distProp, source) != 0 {
      return false, 0;
    }
    notVisited := 0;
    var n := 0;
    while n < count
      invariant n <= count && notVisited == Unreached(g, distProp, n)
      decreases count - n
    {
      if GetData(g, distProp, n) >= DistInfinity {
        notVisited := notVisited + 1;
      }
      n := n + 1;
    }
    var notCorrect := false;
    n := 0;
    while n < count
      invariant n <= count
      invariant notCorrect <==> exists m :: 0 <= m < n && NodeViolates(g, distProp, weightProp, useEdgeWt, m)
      decreases count - n
    {
      var wrong := SanityCheck(g, distProp, weightProp, useEdgeWt, n);
      notCorrect := notCorrect || wrong;
      n := n + 1;
    }
    ok := !notCorrect;
  }

  /** The largest label among reached nodes; nodes at infinity are ignored,
      and None stands for the reducer's identity when no node is reached. */
  function MaxDist(g: Graph, distProp: nat, n: nat): (m: Option<int>)
    requires ValidGraph(g) && distProp < |g.nodeView| && n <= NumNodes(g.file.topology)
    ensures m.None? <==> forall k :: 0 <= k < n ==> GetData(g, distProp, k) == DistInfinity
    ensures m.Some? ==> exists k :: 0 <= k < n && GetData(g, distProp, k) != DistInfinity && GetData(g, distProp, k) == m.value
    ensures m.Some? ==> forall k :: 0 <= k < n && GetData(g, distProp, k) != DistInfinity ==> GetData(g, distProp, k) <= m.value
  {
    if n == 0 then None
    else
      var d := GetData(g, distProp, n - 1);
      var rest := MaxDist(g, distProp, n - 1);
      if d == DistInfinity then rest
      else if rest.None? || rest.value < d then Some(d)
      else rest
  }
}

=== FILE: prop_storage.dfy ===
/** Property (column) storage of one graph partition: the storage-info list that
    says where each attribute column lives, incremental persistence of dirty
    columns, and the layout of the partition-boundary arrays
    (libtsuba/src/RDG.cpp). Arrow/Parquet encoding and the blob store are one
    opaque oracle: storing a column either yields the base name of the file it
    was queued under or an error. */
module PropStorage {
  import opened Errors
  import Decimal

  /** Identity and row count of a typed array; its contents are not inspected. */
  datatype ArrayData = ArrayData(id: nat, length: nat)

  /** A column of an attribute table, with its schema field name. */
  datatype Column = Column(field: string, data: ArrayData)

  /** An attribute table: named columns that all hold `numRows` rows. */
  datatype Table = Table(numRows: nat, columns: seq<Column>)

  /** Where one attribute column lives: `path` is empty until the column has
      been written, and `persist` says whether a commit should write it. */
  datatype PropStorageInfo = PropStorageInfo(name: string, path: string, persist: bool)

  /** An entry the next commit must write. */
  predicate Dirty(p: PropStorageInfo) {
    p.persist && p.path == ""
  }

  /** One request to serialise `array` as a single-column table named `name`. */
  datatype StoreCall = StoreCall(data: ArrayData, name: string)

  /** A write queued in a write group. */
  datatype Write =
    | ColumnFile(file: string, call: StoreCall)
    | TopologyFile(file: string)
    | HeaderFile

  /** The batch of asynchronous writes a commit waits for. */
  datatype WriteGroup = WriteGroup(queued: seq<Write>)

  /** Encoding plus file creation for one column: an error, or the random
      suffix of the new file's name. The first argument is the number of
      writes already queued, so that each call may draw its own suffix. */
  type StoreOracle = (nat, StoreCall) -> Result<string>

  const MirrorNodesPropName := "mirror_nodes"
  const MasterNodesPropName := "master_nodes"
  const LocalToGlobalPropName := "local_to_global_vector"

  predicate StartsWith(s: string, prefix: string) {
    |prefix| <= |s| && s[..|prefix|] == prefix
  }

  /** The base name `Uri::RandFile(prefix)` generates: the prefix, a dash and
      a random suffix. */
  function RandName(prefix: string, suffix: string): (name: string)
    ensures StartsWith(name, prefix) && |name| > |prefix|
  {
    var name := prefix + "-" + suffix;
    assert name[..|prefix|] == prefix;
    name
  }

  /** One column store: the file is named after the column with a random
      suffix, and the store fails exactly when the encoding does. */
  function ColumnStore(store: StoreOracle, k: nat, call: StoreCall): (r: Result<string>)
    ensures r.Ok? <==> store(k, call).Ok?
    ensures r.Ok? ==> StartsWith(r.value, call.name) && r.value != ""
    ensures r.Err? ==> r.error == store(k, call).error
  {
    var out := store(k, call);
    if out.Err? then Err(out.error) else Ok(RandName(call.name, out.value))
  }

  // ---------------------------------------------------------------------------
  // Storing columns

  /** Serialises one column and queues its file; on success the file's base name. */
  function StoreArrayAtName(call: StoreCall, wg: WriteGroup, store: StoreOracle): (r: Result<(string, WriteGroup)>)
    ensures r.Ok? <==> ColumnStore(store, |wg.queued|, call).Ok?
    ensures r.Ok? ==> ColumnStore(store, |wg.queued|, call) == Ok(r.value.0)
    ensures r.Ok? ==> r.value.1.queued == wg.queued + [ColumnFile(r.value.0, call)]
    ensures r.Err? ==> ColumnStore(store, |wg.queued|, call) == Err(r.error) && r.error == ColumnStore(store, |wg.queued|, call).error
  {
    var out := ColumnStore(store, |wg.queued|, call);
    if out.Err? then Err(out.error)
    else Ok((out.value, WriteGroup(wg.queued + [ColumnFile(out.value, call)])))
  }

  /** Every call of the batch succeeds when `base` writes precede it. */
  predicate AllStored(store: StoreOracle, base: nat, calls: seq<StoreCall>) {
    forall k :: 0 <= k < |calls| ==> ColumnStore(store, base + k, calls[k]).Ok?
  }

  /** `e` is the error of the first failing call of the batch. */
  predicate FirstFailure(store: StoreOracle, base: nat, calls: seq<StoreCall>, e: ErrorCode) {
    exists k :: 0 <= k < |calls| && ColumnStore(store, base + k, calls[k]) == Err(e)
      && forall j :: 0 <= j < k ==> ColumnStore(store, base + j, calls[j]).Ok?
  }

  /** `paths` and `wg'` are what a fully successful batch leaves: one path per
      call, and one queued write per call, in call order, after `wg`'s. */
  predicate Stored(store: StoreOracle, calls: seq<StoreCall>, wg: WriteGroup, paths: seq<string>, wg': WriteGroup) {
    && |paths| == |calls|
    && |wg'.queued| == |wg.queued| + |calls|
    && wg'.queued[..|wg.queued|] == wg.queued
    && forall k :: 0 <= k < |calls| ==>
         ColumnStore(store, |wg.queued| + k, calls[k]) == Ok(paths[k])
         && wg'.queued[|wg.queued| + k] == ColumnFile(paths[k], calls[k])
  }

  /** Issues the store calls in order and stops at the first failure. */
  function RunStores(calls: seq<StoreCall>, wg: WriteGroup, store: StoreOracle): (r: Result<(seq<string>, WriteGroup)>)
    ensures r.Ok? <==> AllStored(store, |wg.queued|, calls)
    ensures r.Ok? ==> Stored(store, calls, wg, r.value.0, r.value.1)
    ensures r.Err? ==> FirstFailure(store, |wg.queued|, calls, r.error)
    decreases |calls|
  {
    if |calls| == 0 then Ok(([], wg))
    else
      match StoreArrayAtName(calls[0], wg, store)
      case Err(e) =>
        assert ColumnStore(store, |wg.queued| + 0, calls[0]) == Err(e);
        Err(e)
      case Ok((p, wg1)) =>
        var rest := RunStores(calls[1..], wg1, store);
        ShiftedBatch(store, |wg.queued|, calls);
        if rest.Err? then
          ShiftedFailure(store, |wg.queued|, calls, rest.error);
          Err(rest.error)
        else
          StoredCons(store, calls, wg, p, rest.value.0, rest.value.1);
          Ok(([p] + rest.value.0, rest.value.1))
  }

  lemma StoredCons(store: StoreOracle, calls: seq<StoreCall>, wg: WriteGroup, p: string, paths: seq<string>, wg2: WriteGroup)
    requires |calls| > 0 && ColumnStore(store, |wg.queued|, calls[0]) == Ok(p)
    requires Stored(store, calls[1..], WriteGroup(wg.queued + [ColumnFile(p, calls[0])]), paths, wg2)
    ensures Stored(store, calls, wg, [p] + paths, wg2)
  {
    var n := |wg.queued|;
    var wg1 := WriteGroup(wg.queued + [ColumnFile(p, calls[0])]);
    assert wg2.queued[..n] == wg2.queued[..n + 1][..n] == wg1.queued[..n] == wg.queued;
    forall k | 0 <= k < |calls|
      ensures ColumnStore(store, n + k, calls[k]) == Ok(([p] + paths)[k])
      ensures wg2.queued[n + k] == ColumnFile(([p] + paths)[k], calls[k])
    {
      if k == 0 {
        assert wg2.queued[n] == wg2.queued[..n + 1][n] == wg1.queued[n];
      } else {
        assert calls[1..][k - 1] == calls[k];
        assert ColumnStore(store, n + 1 + (k - 1), calls[1..][k - 1]) == Ok(paths[k - 1]);
      }
    }
  }

  /** The tail of a batch sees one more queued write than the batch. */
  lemma ShiftedBatch(store: StoreOracle, base: nat, calls: seq<StoreCall>)
    requires |calls| > 0 && ColumnStore(store, base, calls[0]).Ok?
    ensures AllStored(store, base, calls) <==> AllStored(store, base + 1, calls[1..])
  {
    if AllStored(store, base + 1, calls[1..]) {
      forall k | 0 <= k < |calls|
        ensures ColumnStore(store, base + k, calls[k]).Ok?
      {
        if k > 0 {
          assert calls[1..][k - 1] == calls[k];
        }
      }
    }
    if AllStored(store, base, calls) {
      forall k | 0 <= k < |calls| - 1
        ensures ColumnStore(store, base + 1 + k, calls[1..][k]).Ok?
      {
        assert calls[1..][k] == calls[k + 1];
      }
    }
  }

  lemma ShiftedFailure(store: StoreOracle, base: nat, calls: seq<StoreCall>, e: ErrorCode)
    requires |calls| > 0 && ColumnStore(store, base, calls[0]).Ok?
    requires FirstFailure(store, base + 1, calls[1..], e)
    ensures FirstFailure(store, base, calls, e)
  {
    var k :| 0 <= k < |calls[1..]| && ColumnStore(store, base + 1 + k, calls[1..][k]) == Err(e)
      && forall j :: 0 <= j < k ==> ColumnStore(store, base + 1 + j, calls[1..][j]).Ok?;
    assert ColumnStore(store, base + (k + 1), calls[k + 1]) == Err(e);
    forall j | 0 <= j < k + 1
      ensures ColumnStore(store, base + j, calls[j]).Ok?
    {
      if j > 0 {
        assert calls[1..][j - 1] == calls[j];
      }
    }
  }

  // ---------------------------------------------------------------------------
  // Incremental persistence of a node or edge table

  /** Positions of the dirty entries, in increasing order. */
  function DirtyIndices(props: seq<PropStorageInfo>): (r: seq<nat>)
    ensures forall k :: 0 <= k < |r| ==> r[k] < |props| && Dirty(props[r[k]])
    ensures forall i :: 0 <= i < |props| && Dirty(props[i]) ==> i in r
    ensures forall k, l :: 0 <= k < l < |r| ==> r[k] < r[l]
  {
    if |props| == 0 then []
    else DirtyIndices(props[..|props| - 1]) + (if Dirty(props[|props| - 1]) then [|props| - 1] else [])
  }

  /** Number of dirty entries before position `i`: entry `i`'s place among the
      store calls WriteTable issues. */
  function Rank(props: seq<PropStorageInfo>, i: nat): nat
    requires i <= |props|
  {
    |DirtyIndices(props[..i])|
  }

  lemma {:induction false} RankIndex(props: seq<PropStorageInfo>, i: nat)
    requires i < |props| && Dirty(props[i])
    ensures Rank(props, i) < |DirtyIndices(props)|
    ensures DirtyIndices(props)[Rank(props, i)] == i
    decreases |props|
  {
    var n := |props|;
    var init := props[..n - 1];
    if i == n - 1 {
      assert init == props[..i];
    } else {
      assert init[..i] == props[..i];
      RankIndex(init, i);
    }
  }

  lemma RankIndexAll(props: seq<PropStorageInfo>)
    ensures forall i :: 0 <= i < |props| && Dirty(props[i]) ==>
      Rank(props, i) < |DirtyIndices(props)| && DirtyIndices(props)[Rank(props, i)] == i
  {
    forall i | 0 <= i < |props| && Dirty(props[i])
      ensures Rank(props, i) < |DirtyIndices(props)| && DirtyIndices(props)[Rank(props, i)] == i
    {
      RankIndex(props, i);
    }
  }

  /** Every dirty entry has a column in the table. */
  predicate DirtyInTable(table: Table, props: seq<PropStorageInfo>) {
    forall i :: 0 <= i < |props| && Dirty(props[i]) ==> i < |table.columns|
  }

  /** The name a column is stored under: the entry's own name, or the schema
      field name when the entry has none. */
  function ColumnName(table: Table, props: seq<PropStorageInfo>, i: nat): string
    requires i < |props| && i < |table.columns|
  {
    if props[i].name == "" then table.columns[i].field else props[i].name
  }

  function CallFor(table: Table, props: seq<PropStorageInfo>, i: nat): StoreCall
    requires i < |props| && i < |table.columns|
  {
    StoreCall(table.columns[i].data, ColumnName(table, props, i))
  }

  /** The store calls WriteTable issues, one per dirty entry, in index order. */
  function DirtyCalls(table: Table, props: seq<PropStorageInfo>): (calls: seq<StoreCall>)
    requires DirtyInTable(table, props)
    ensures |calls| == |DirtyIndices(props)|
    ensures forall i :: 0 <= i < |props| && Dirty(props[i]) ==>
      Rank(props, i) < |calls| && calls[Rank(props, i)] == CallFor(table, props, i)
  {
    var d := DirtyIndices(props);
    RankIndexAll(props);
    seq(|d|, k requires 0 <= k < |d| => CallFor(table, props, d[k]))
  }

  /** Splitting off the first entry: it contributes one dirty index when it
      is dirty, and the rest contribute theirs. */
  lemma {:induction false} DirtyCountCons(props: seq<PropStorageInfo>)
    requires |props| > 0
    ensures |DirtyIndices(props)| == (if Dirty(props[0]) then 1 else 0) + |DirtyIndices(props[1..])|
    decreases |props|
  {
    var n := |props|;
    if n > 1 {
      var init := props[..n - 1];
      DirtyCountCons(init);
      assert init[1..] == props[1..][..n - 2];
      assert init[0] == props[0];
      assert props[1..][n - 2] == props[n - 1];
    }
  }

  /** The second pass of WriteTable: walking the list with a cursor into the
      new paths, each dirty entry takes the path under the cursor and
      advances it. */
  function AssignPaths(props: seq<PropStorageInfo>, paths: seq<string>): (r: seq<PropStorageInfo>)
    requires |paths| == |DirtyIndices(props)|
    ensures |r| == |props|
    decreases |props|
  {
    if |props| == 0 then []
    else
      DirtyCountCons(props);
      if Dirty(props[0]) then [props[0].(path := paths[0])] + AssignPaths(props[1..], paths[1..])
      else [props[0]] + AssignPaths(props[1..], paths)
  }

  /** The cursor hands the paths out in index order: an entry that is not
      dirty is kept, and the dirty entry of rank `k` takes the `k`-th path,
      the one its own store call returned. */
  lemma AssignPathsByRank(props: seq<PropStorageInfo>, paths: seq<string>)
    requires |paths| == |DirtyIndices(props)|
    ensures forall i :: 0 <= i < |props| && !Dirty(props[i]) ==> AssignPaths(props, paths)[i] == props[i]
    ensures forall i :: 0 <= i < |props| && Dirty(props[i]) ==>
      Rank(props, i) < |paths| && AssignPaths(props, paths)[i] == props[i].(path := paths[Rank(props, i)])
  {
    forall i | 0 <= i < |props|
      ensures !Dirty(props[i]) ==> AssignPaths(props, paths)[i] == props[i]
      ensures Dirty(props[i]) ==>
        Rank(props, i) < |paths| && AssignPaths(props, paths)[i] == props[i].(path := paths[Rank(props, i)])
    {
      AssignPathsAt(props, paths, i);
    }
  }

  lemma {:induction false} AssignPathsAt(props: seq<PropStorageInfo>, paths: seq<string>, i: nat)
    requires |paths| == |DirtyIndices(props)| && i < |props|
    ensures !Dirty(props[i]) ==> AssignPaths(props, paths)[i] == props[i]
    ensures Dirty(props[i]) ==>
      Rank(props, i) < |paths| && AssignPaths(props, paths)[i] == props[i].(path := paths[Rank(props, i)])
    decreases i
  {
    DirtyCountCons(props);
    var rest := props[1..];
    var restPaths := if Dirty(props[0]) then paths[1..] else paths;
    if i == 0 {
      assert props[..0] == [];
    } else {
      AssignPathsAt(rest, restPaths, i - 1);
      DirtyCountCons(props[..i]);
      assert props[..i][1..] == rest[..i - 1];
      assert props[..i][0] == props[0];
      assert AssignPaths(props, paths)[i] == AssignPaths(rest, restPaths)[i - 1];
    }
  }

  /** `out` and `wg'` are what writing the dirty entries of `props` leaves:
      clean entries are kept, each dirty entry keeps its name and flag and takes
      the file name its store call returned, and the write group gains one
      column file per dirty entry, in index order. */
  ghost predicate IncrementallyWritten(table: Table, props: seq<PropStorageInfo>, wg: WriteGroup, store: StoreOracle,
                                       out: seq<PropStorageInfo>, wg': WriteGroup)
    requires DirtyInTable(table, props)
  {
    && |out| == |props|
    && (forall i :: 0 <= i < |props| && !Dirty(props[i]) ==> out[i] == props[i])
    && (forall i :: 0 <= i < |props| && Dirty(props[i]) ==>
          && out[i] == props[i].(path := out[i].path)
          && ColumnStore(store, |wg.queued| + Rank(props, i), CallFor(table, props, i)) == Ok(out[i].path)
          && |wg.queued| + Rank(props, i) < |wg'.queued|
          && wg'.queued[|wg.queued| + Rank(props, i)] == ColumnFile(out[i].path, CallFor(table, props, i)))
    && |wg'.queued| == |wg.queued| + |DirtyIndices(props)|
    && wg'.queued[..|wg.queued|] == wg.queued
  }

  lemma WrittenFromStored(table: Table, props: seq<PropStorageInfo>, wg: WriteGroup, store: StoreOracle,
                          paths: seq<string>, wg': WriteGroup)
    requires DirtyInTable(table, props)
    requires Stored(store, DirtyCalls(table, props), wg, paths, wg')
    ensures IncrementallyWritten(table, props, wg, store, AssignPaths(props, paths), wg')
  {
    AssignPathsByRank(props, paths);
    DirtyEntriesWritten(table, props, wg, store, paths, wg');
  }

  lemma DirtyEntriesWritten(table: Table, props: seq<PropStorageInfo>, wg: WriteGroup, store: StoreOracle,
                            paths: seq<string>, wg': WriteGroup)
    requires DirtyInTable(table, props)
    requires Stored(store, DirtyCalls(table, props), wg, paths, wg')
    ensures |paths| == |DirtyIndices(props)|
    ensures forall i :: 0 <= i < |props| && Dirty(props[i]) ==>
      && AssignPaths(props, paths)[i] == props[i].(path := AssignPaths(props, paths)[i].path)
      && ColumnStore(store, |wg.queued| + Rank(props, i), CallFor(table, props, i)) == Ok(AssignPaths(props, paths)[i].path)
      && |wg.queued| + Rank(props, i) < |wg'.queued|
      && wg'.queued[|wg.queued| + Rank(props, i)] == ColumnFile(AssignPaths(props, paths)[i].path, CallFor(table, props, i))
  {
    forall i | 0 <= i < |props| && Dirty(props[i])
      ensures
        && AssignPaths(props, paths)[i] == props[i].(path := AssignPaths(props, paths)[i].path)
        && ColumnStore(store, |wg.queued| + Rank(props, i), CallFor(table, props, i)) == Ok(AssignPaths(props, paths)[i].path)
        && |wg.queued| + Rank(props, i) < |wg'.queued|
        && wg'.queued[|wg.queued| + Rank(props, i)] == ColumnFile(AssignPaths(props, paths)[i].path, CallFor(table, props, i))
    {
      DirtyEntryWritten(table, props, wg, store, paths, wg', i);
    }
  }

  lemma DirtyEntryWritten(table: Table, props: seq<PropStorageInfo>, wg: WriteGroup, store: StoreOracle,
                          paths: seq<string>, wg': WriteGroup, i: nat)
    requires DirtyInTable(table, props)
    requires Stored(store, DirtyCalls(table, props), wg, paths, wg')
    requires i < |props| && Dirty(props[i])
    ensures |paths| == |DirtyIndices(props)|
    ensures AssignPaths(props, paths)[i] == props[i].(path := AssignPaths(props, paths)[i].path)
    ensures ColumnStore(store, |wg.queued| + Rank(props, i), CallFor(table, props, i)) == Ok(AssignPaths(props, paths)[i].path)
    ensures |wg.queued| + Rank(props, i) < |wg'.queued|
    ensures wg'.queued[|wg.queued| + Rank(props, i)] == ColumnFile(AssignPaths(props, paths)[i].path, CallFor(table, props, i))
  {
    var calls := DirtyCalls(table, props);
    var k := Rank(props, i);
    assert k < |calls| && calls[k] == CallFor(table, props, i);
    AssignPathsByRank(props, paths);
    assert AssignPaths(props, paths)[i].path == paths[k];
    StoredAt(store, calls, wg, paths, wg', k);
  }

  lemma StoredAt(store: StoreOracle, calls: seq<StoreCall>, wg: WriteGroup, paths: seq<string>, wg': WriteGroup, k: nat)
    requires Stored(store, calls, wg, paths, wg') && k < |calls|
    ensures ColumnStore(store, |wg.queued| + k, calls[k]) == Ok(paths[k])
    ensures |wg.queued| + k < |wg'.queued|
    ensures wg'.queued[|wg.queued| + k] == ColumnFile(paths[k], calls[k])
  {
  }

  /** Writes every dirty column of `table` and returns the storage-info list
      with the new file names filled in; any store failure aborts the whole
      table and no updated list is produced. */
  function WriteTable(table: Table, props: seq<PropStorageInfo>, wg: WriteGroup, store: StoreOracle)
    : (r: Result<(seq<PropStorageInfo>, WriteGroup)>)
    requires DirtyInTable(table, props)
    ensures r.Ok? <==> AllStored(store, |wg.queued|, DirtyCalls(table, props))
    ensures r.Err? ==> FirstFailure(store, |wg.queued|, DirtyCalls(table, props), r.error)
    ensures r.Ok? ==> IncrementallyWritten(table, props, wg, store, r.value.0, r.value.1)
    ensures |DirtyIndices(props)| == 0 ==> r == Ok((props, wg))
  {
    var calls := DirtyCalls(table, props);
    var run := RunStores(calls, wg, store);
    if run.Err? then Err(run.error)
    else
      var paths := run.value.0;
      WrittenFromStored(table, props, wg, store, paths, run.value.1);
      if |paths| == 0 then
        NoDirtyKeepsList(props, paths);
        assert run.value.1.queued == run.value.1.queued[..|wg.queued|];
        Ok((props, run.value.1))
      else Ok((AssignPaths(props, paths), run.value.1))
  }

  lemma NoDirtyKeepsList(props: seq<PropStorageInfo>, paths: seq<string>)
    requires |paths| == |DirtyIndices(props)| == 0
    ensures AssignPaths(props, paths) == props
  {
    var out := AssignPaths(props, paths);
    AssignPathsByRank(props, paths);
    forall i | 0 <= i < |props|
      ensures out[i] == props[i]
    {
      assert !Dirty(props[i]);
    }
  }

  /** No entry of the list is dirty. */
  predicate Clean(props: seq<PropStorageInfo>) {
    forall i :: 0 <= i < |props| ==> !Dirty(props[i])
  }

  lemma {:induction false} CleanHasNoDirtyIndices(props: seq<PropStorageInfo>)
    requires Clean(props)
    ensures |DirtyIndices(props)| == 0
    decreases |props|
  {
    if |props| > 0 {
      var init := props[..|props| - 1];
      assert forall i :: 0 <= i < |init| ==> init[i] == props[i];
      CleanHasNoDirtyIndices(init);
    }
  }

  /** A successful WriteTable leaves nothing dirty: every new file name is non-empty. */
  lemma WriteTableCleans(table: Table, props: seq<PropStorageInfo>, wg: WriteGroup, store: StoreOracle)
    requires DirtyInTable(table, props)
    requires WriteTable(table, props, wg, store).Ok?
    ensures Clean(WriteTable(table, props, wg, store).value.0)
  {
    var res := WriteTable(table, props, wg, store);
    forall i | 0 <= i < |res.value.0|
      ensures !Dirty(res.value.0[i])
    {
      WrittenEntryClean(table, props, wg, store, res.value.0, res.value.1, i);
    }
  }

  lemma WrittenEntryClean(table: Table, props: seq<PropStorageInfo>, wg: WriteGroup, store: StoreOracle,
                          out: seq<PropStorageInfo>, wg': WriteGroup, i: nat)
    requires DirtyInTable(table, props)
    requires IncrementallyWritten(table, props, wg, store, out, wg')
    requires i < |out|
    ensures !Dirty(out[i])
  {
    if Dirty(props[i]) {
      var res := ColumnStore(store, |wg.queued| + Rank(props, i), CallFor(table, props, i));
      assert res == Ok(out[i].path);
      assert res.value != "";
    }
  }

  /** Incremental persistence is idempotent: writing a table's storage-info list
      a second time makes no store call and returns the list unchanged. */
  lemma WriteTableTwiceWritesNothing(table: Table, props: seq<PropStorageInfo>, wg: WriteGroup, store: StoreOracle,
                                     wg2: WriteGroup, store2: StoreOracle)
    requires DirtyInTable(table, props)
    requires WriteTable(table, props, wg, store).Ok?
    ensures DirtyInTable(table, WriteTable(table, props, wg, store).value.0)
    ensures var once := WriteTable(table, props, wg, store).value.0;
      WriteTable(table, once, wg2, store2) == Ok((once, wg2))
  {
    var once := WriteTable(table, props, wg, store).value.0;
    WriteTableCleans(table, props, wg, store);
    CleanHasNoDirtyIndices(once);
  }

  // ---------------------------------------------------------------------------
  // Partition-boundary arrays

  /** Replica-boundary bookkeeping of a partition: mirror-node arrays,
      master-node arrays and the optional local-to-global id vector. */
  datatype PartArrays = PartArrays(mirrors: seq<ArrayData>, masters: seq<ArrayData>, localToGlobal: Option<ArrayData>)

  const NoPartArrays := PartArrays([], [], None)

  /** `mirror_nodes_<i>`, with `i` in decimal. */
  function MirrorPropName(i: nat): string {
    MirrorNodesPropName + "_" + Decimal.NatToString(i)
  }

  /** `master_nodes_<i>`, with `i` in decimal. */
  function MasterPropName(i: nat): string {
    MasterNodesPropName + "_" + Decimal.NatToString(i)
  }

  /** Each name carries its own prefix and not the other one, followed by an
      underscore and the decimal index. */
  lemma PartPropNameShape(i: nat)
    ensures StartsWith(MirrorPropName(i), MirrorNodesPropName) && !StartsWith(MirrorPropName(i), MasterNodesPropName)
    ensures StartsWith(MasterPropName(i), MasterNodesPropName) && !StartsWith(MasterPropName(i), MirrorNodesPropName)
    ensures MirrorPropName(i)[|MirrorNodesPropName|..] == "_" + Decimal.NatToString(i)
    ensures MasterPropName(i)[|MasterNodesPropName|..] == "_" + Decimal.NatToString(i)
  {
    var mi, ma := MirrorPropName(i), MasterPropName(i);
    assert mi[..|MirrorNodesPropName|] == MirrorNodesPropName;
    assert mi[1] == 'i';
    assert ma[..|MasterNodesPropName|] == MasterNodesPropName;
    assert ma[1] == 'a';
  }

  /** Distinct mirror (or master) indices give distinct column names. */
  lemma PartPropNamesInjective(i: nat, j: nat)
    ensures MirrorPropName(i) == MirrorPropName(j) ==> i == j
    ensures MasterPropName(i) == MasterPropName(j) ==> i == j
  {
    PartPropNameShape(i);
    PartPropNameShape(j);
    if MirrorPropName(i) == MirrorPropName(j) || MasterPropName(i) == MasterPropName(j) {
      assert ("_" + Decimal.NatToString(i))[1..] == Decimal.NatToString(i);
      assert ("_" + Decimal.NatToString(j))[1..] == Decimal.NatToString(j);
      Decimal.NatToStringInjective(i, j);
    }
  }

  function MirrorCalls(arrays: seq<ArrayData>): (calls: seq<StoreCall>)
    ensures |calls| == |arrays|
    ensures forall i :: 0 <= i < |arrays| ==> calls[i] == StoreCall(arrays[i], MirrorPropName(i))
  {
    seq(|arrays|, i requires 0 <= i < |arrays| => StoreCall(arrays[i], MirrorPropName(i)))
  }

  function MasterCalls(arrays: seq<ArrayData>): (calls: seq<StoreCall>)
    ensures |calls| == |arrays|
    ensures forall i :: 0 <= i < |arrays| ==> calls[i] == StoreCall(arrays[i], MasterPropName(i))
  {
    seq(|arrays|, i requires 0 <= i < |arrays| => StoreCall(arrays[i], MasterPropName(i)))
  }

  function LocalToGlobalCalls(l2g: Option<ArrayData>): seq<StoreCall> {
    if l2g.Some? then [StoreCall(l2g.value, LocalToGlobalPropName)] else []
  }

  function PartArrayCount(parts: PartArrays): nat {
    |parts.mirrors| + |parts.masters| + (if parts.localToGlobal.Some? then 1 else 0)
  }

  /** The store calls of WritePartArrays: mirror `i` as `mirror_nodes_<i>`,
      then master `i` as `master_nodes_<i>`, then the local-to-global vector
      when there is one. */
  function PartCalls(parts: PartArrays): (calls: seq<StoreCall>)
    ensures |calls| == PartArrayCount(parts)
    ensures forall i :: 0 <= i < |parts.mirrors| ==> calls[i] == StoreCall(parts.mirrors[i], MirrorPropName(i))
    ensures forall i :: 0 <= i < |parts.masters| ==>
      calls[|parts.mirrors| + i] == StoreCall(parts.masters[i], MasterPropName(i))
    ensures parts.localToGlobal.Some? ==>
      calls[|parts.mirrors| + |parts.masters|] == StoreCall(parts.localToGlobal.value, LocalToGlobalPropName)
  {
    seq(PartArrayCount(parts), i requires 0 <= i < PartArrayCount(parts) => PartCall(parts, i))
  }

  /** The `i`-th store call of WritePartArrays. */
  function PartCall(parts: PartArrays, i: nat): StoreCall
    requires i < PartArrayCount(parts)
  {
    var nm, ns := |parts.mirrors|, |parts.masters|;
    if i < nm then StoreCall(parts.mirrors[i], MirrorPropName(i))
    else if i < nm + ns then StoreCall(parts.masters[i - nm], MasterPropName(i - nm))
    else StoreCall(parts.localToGlobal.value, LocalToGlobalPropName)
  }

  function Paths(entries: seq<PropStorageInfo>): (r: seq<string>)
    ensures |r| == |entries|
    ensures forall k :: 0 <= k < |entries| ==> r[k] == entries[k].path
  {
    seq(|entries|, k requires 0 <= k < |entries| => entries[k].path)
  }

  /** The storage-info entry of each stored call: its name, its new file, persistent. */
  function StoredEntries(calls: seq<StoreCall>, paths: seq<string>): (r: seq<PropStorageInfo>)
    requires |paths| == |calls|
    ensures |r| == |calls|
    ensures forall k :: 0 <= k < |calls| ==> r[k] == PropStorageInfo(calls[k].name, paths[k], true)
    ensures Paths(r) == paths
  {
    var r := seq(|calls|, k requires 0 <= k < |calls| => PropStorageInfo(calls[k].name, paths[k], true));
    assert Paths(r) == paths;
    r
  }

  /** Writes every partition-boundary array (always all of them, dirty or not)
      and returns one persistent storage-info entry per array, in the order of
      PartCalls. */
  function WritePartArrays(parts: PartArrays, wg: WriteGroup, store: StoreOracle)
    : (r: Result<(seq<PropStorageInfo>, WriteGroup)>)
    ensures r.Ok? <==> AllStored(store, |wg.queued|, PartCalls(parts))
    ensures r.Err? ==> FirstFailure(store, |wg.queued|, PartCalls(parts), r.error)
    ensures r.Ok? ==> |r.value.0| == PartArrayCount(parts)
    ensures r.Ok? ==> forall k :: 0 <= k < |r.value.0| ==>
      r.value.0[k] == PropStorageInfo(PartCalls(parts)[k].name, r.value.0[k].path, true)
    ensures r.Ok? ==> Stored(store, PartCalls(parts), wg, Paths(r.value.0), r.value.1)
  {
    var calls := PartCalls(parts);
    match RunStores(calls, wg, store)
    case Err(e) => Err(e)
    case Ok((paths, wg')) => Ok((StoredEntries(calls, paths), wg'))
  }

  /** Routes a loaded single-column partition table to its slot by column name:
      prefix `mirror_nodes` (checked first), prefix `master_nodes`, or exactly
      `local_to_global_vector`; any other name is rejected. */
  function AddPartitionMetadataArray(parts: PartArrays, table: Table): (r: Result<PartArrays>)
    requires |table.columns| > 0
    ensures r.Err? <==>
      && !StartsWith(table.columns[0].field, MirrorNodesPropName)
      && !StartsWith(table.columns[0].field, MasterNodesPropName)
      && table.columns[0].field != LocalToGlobalPropName
    ensures r.Err? ==> r.error == InvalidArgument
    ensures StartsWith(table.columns[0].field, MirrorNodesPropName) ==>
      r == Ok(parts.(mirrors := parts.mirrors + [table.columns[0].data]))
    ensures !StartsWith(table.columns[0].field, MirrorNodesPropName) && StartsWith(table.columns[0].field, MasterNodesPropName) ==>
      r == Ok(parts.(masters := parts.masters + [table.columns[0].data]))
    ensures
      && !StartsWith(table.columns[0].field, MirrorNodesPropName)
      && !StartsWith(table.columns[0].field, MasterNodesPropName)
      && table.columns[0].field == LocalToGlobalPropName
      ==> r == Ok(parts.(localToGlobal := Some(table.columns[0].data)))
  {
    var name := table.columns[0].field;
    var col := table.columns[0].data;
    if StartsWith(name, MirrorNodesPropName) then Ok(parts.(mirrors := parts.mirrors + [col]))
    else if StartsWith(name, MasterNodesPropName) then Ok(parts.(masters := parts.masters + [col]))
    else if name == LocalToGlobalPropName then Ok(parts.(localToGlobal := Some(col)))
    else Err(InvalidArgument)
  }

  /** A stored column read back: the file holds a single-column table whose one
      field carries the name it was stored under. */
  function LoadedTable(call: StoreCall): Table {
    Table(call.data.length, [Column(call.name, call.data)])
  }

  /** Feeds loaded partition tables to AddPartitionMetadataArray in order,
      stopping at the first rejected one. */
  function AddPartTables(parts: PartArrays, calls: seq<StoreCall>): (r: Result<PartArrays>)
    decreases |calls|
  {
    if |calls| == 0 then Ok(parts)
    else
      match AddPartitionMetadataArray(parts, LoadedTable(calls[0]))
      case Err(e) => Err(e)
      case Ok(p1) => AddPartTables(p1, calls[1..])
  }

  lemma {:induction false} AddPartTablesAppend(parts: PartArrays, c1: seq<StoreCall>, c2: seq<StoreCall>)
    ensures AddPartTables(parts, c1 + c2) ==
      match AddPartTables(parts, c1)
      case Err(e) => Err(e)
      case Ok(p1) => AddPartTables(p1, c2)
    decreases |c1|
  {
    if |c1| == 0 {
      assert c1 + c2 == c2;
    } else {
      assert (c1 + c2)[0] == c1[0];
      assert (c1 + c2)[1..] == c1[1..] + c2;
      match AddPartitionMetadataArray(parts, LoadedTable(c1[0]))
      case Err(e) =>
      case Ok(p1) => AddPartTablesAppend(p1, c1[1..], c2);
    }
  }

  function Arrays(calls: seq<StoreCall>): (r: seq<ArrayData>)
    ensures |r| == |calls|
    ensures forall k :: 0 <= k < |calls| ==> r[k] == calls[k].data
  {
    seq(|calls|, k requires 0 <= k < |calls| => calls[k].data)
  }

  lemma {:induction false} LoadMirrors(parts: PartArrays, calls: seq<StoreCall>)
    requires forall k :: 0 <= k < |calls| ==> StartsWith(calls[k].name, MirrorNodesPropName)
    ensures AddPartTables(parts, calls) == Ok(parts.(mirrors := parts.mirrors + Arrays(calls)))
    decreases |calls|
  {
    if |calls| == 0 {
      assert parts.mirrors + Arrays(calls) == parts.mirrors;
    } else {
      var p1 := parts.(mirrors := parts.mirrors + [calls[0].data]);
      assert AddPartitionMetadataArray(parts, LoadedTable(calls[0])) == Ok(p1);
      assert forall k :: 0 <= k < |calls[1..]| ==> calls[1..][k] == calls[k + 1];
      LoadMirrors(p1, calls[1..]);
      assert p1.mirrors + Arrays(calls[1..]) == parts.mirrors + Arrays(calls);
    }
  }

  lemma {:induction false} LoadMasters(parts: PartArrays, calls: seq<StoreCall>)
    requires forall k :: 0 <= k < |calls| ==>
      StartsWith(calls[k].name, MasterNodesPropName) && !StartsWith(calls[k].name, MirrorNodesPropName)
    ensures AddPartTables(parts, calls) == Ok(parts.(masters := parts.masters + Arrays(calls)))
    decreases |calls|
  {
    if |calls| == 0 {
      assert parts.masters + Arrays(calls) == parts.masters;
    } else {
      var p1 := parts.(masters := parts.masters + [calls[0].data]);
      assert AddPartitionMetadataArray(parts, LoadedTable(calls[0])) == Ok(p1);
      assert forall k :: 0 <= k < |calls[1..]| ==> calls[1..][k] == calls[k + 1];
      LoadMasters(p1, calls[1..]);
      assert p1.masters + Arrays(calls[1..]) == parts.masters + Arrays(calls);
    }
  }

  /** Loading the partition-boundary columns that WritePartArrays stored, in the
      order of its entries, puts every array back in the slot it came from. */
  lemma PartArraysRoundTrip(parts: PartArrays)
    ensures AddPartTables(NoPartArrays, PartCalls(parts)) == Ok(parts)
  {
    var mc := MirrorCalls(parts.mirrors);
    var sc := MasterCalls(parts.masters);
    var lc := LocalToGlobalCalls(parts.localToGlobal);
    assert PartCalls(parts) == mc + sc + lc;
    AddPartTablesAppend(NoPartArrays, mc + sc, lc);
    AddPartTablesAppend(NoPartArrays, mc, sc);
    forall k | 0 <= k < |mc|
      ensures StartsWith(mc[k].name, MirrorNodesPropName)
    {
      PartPropNameShape(k);
    }
    forall k | 0 <= k < |sc|
      ensures StartsWith(sc[k].name, MasterNodesPropName) && !StartsWith(sc[k].name, MirrorNodesPropName)
    {
      PartPropNameShape(k);
    }
    LoadMirrors(NoPartArrays, mc);
    assert [] + Arrays(mc) == parts.mirrors;
    var p1 := PartArrays(parts.mirrors, [], None);
    assert AddPartTables(NoPartArrays, mc) == Ok(p1);
    LoadMasters(p1, sc);
    assert [] + Arrays(sc) == parts.masters;
    var p2 := PartArrays(parts.mirrors, parts.masters, None);
    assert AddPartTables(p1, sc) == Ok(p2);
    assert AddPartTables(NoPartArrays, mc + sc) == Ok(p2);
    if parts.localToGlobal.Some? {
      var n := LocalToGlobalPropName;
      assert n[..|MirrorNodesPropName|][0] != MirrorNodesPropName[0];
      assert n[..|MasterNodesPropName|][0] != MasterNodesPropName[0];
      assert AddPartitionMetadataArray(p2, LoadedTable(lc[0])) == Ok(parts);
      assert lc[1..] == [];
    } else {
      assert lc == [];
    }
  }

  // ---------------------------------------------------------------------------
  // Adding attribute columns

  /** Appends the columns of `added` to `table` when the row counts agree or
      `table` has no column yet. */
  function AppendColumns(table: Table, added: Table): (r: Result<Table>)
    ensures r.Ok? <==> |table.columns| == 0 || table.numRows == added.numRows
    ensures r.Err? ==> r.error == InvalidArgument
    ensures r.Ok? ==> r.value.columns == table.columns + added.columns && r.value.numRows == added.numRows
  {
    if |table.columns| > 0 && table.numRows != added.numRows then Err(InvalidArgument)
    else Ok(Table(added.numRows, table.columns + added.columns))
  }

  /** The storage-info entries for freshly added columns: named after the
      schema fields, not yet written, not marked persistent. */
  function NewInfos(added: Table): (r: seq<PropStorageInfo>)
    ensures |r| == |added.columns|
    ensures forall i :: 0 <= i < |r| ==> r[i] == PropStorageInfo(added.columns[i].field, "", false)
  {
    seq(|added.columns|, i requires 0 <= i < |added.columns| => PropStorageInfo(added.columns[i].field, "", false))
  }

  /** The table's columns and the storage-info list correspond one to one. */
  predicate Aligned(table: Table, props: seq<PropStorageInfo>) {
    |table.columns| == |props|
  }

  /** Adds attribute columns and one storage-info entry per column. */
  function AddProperties(table: Table, props: seq<PropStorageInfo>, added: Table)
    : (r: Result<(Table, seq<PropStorageInfo>)>)
    ensures r.Ok? <==> AppendColumns(table, added).Ok?
    ensures r.Err? ==> r.error == InvalidArgument
    ensures r.Ok? ==> r.value.0.columns == table.columns + added.columns
    ensures r.Ok? ==> |r.value.1| == |props| + |added.columns| && r.value.1[..|props|] == props
    ensures r.Ok? ==> forall i :: 0 <= i < |added.columns| ==>
      r.value.1[|props| + i] == PropStorageInfo(added.columns[i].field, "", false)
    ensures r.Ok? && Aligned(table, props) ==> Aligned(r.value.0, r.value.1)
  {
    match AppendColumns(table, added)
    case Err(e) => Err(e)
    case Ok(t) =>
      var infos := props + NewInfos(added);
      assert infos[..|props|] == props;
      Ok((t, infos))
  }
}

=== FILE: property_graph.dfy ===
/** The typed graph facade (libgalois/include/galois/graphs/PropertyGraph.h):
    a compressed-sparse-row topology, node and edge ranges, edge destinations,
    typed attribute views bound by column name, and the binary search for an
    edge by destination. Node ids are 32-bit as in the source; edge ids are unbounded naturals. */
module PropertyGraph {
  import opened Errors

  const Uint32Max: nat := 0xFFFF_FFFF

  // ---------------------------------------------------------------------------
  // Topology

  /** `outIndices[n]` is one past the last edge of node `n` (a running total of
      out-degrees); `outDests[e]` is the destination of edge `e`. */
  datatype Topology = Topology(outIndices: seq<nat>, outDests: seq<nat>)

  predicate ValidTopology(t: Topology) {
    && (forall i, j :: 0 <= i <= j < |t.outIndices| ==> t.outIndices[i] <= t.outIndices[j])
    && (|t.outIndices| > 0 ==> t.outIndices[|t.outIndices| - 1] == |t.outDests|)
    && (|t.outIndices| == 0 ==> |t.outDests| == 0)
    && (forall e :: 0 <= e < |t.outDests| ==> t.outDests[e] < |t.outIndices|)
  }

  function NumNodes(t: Topology): nat {
    |t.outIndices|
  }

  function NumEdges(t: Topology): nat {
    |t.outDests|
  }

  /** The half-open range of edge ids of one node. */
  datatype EdgeRange = EdgeRange(first: nat, last: nat)

  /** The out-edges of `n`: from where the previous node's edges end (0 for the
      first node) up to `outIndices[n]`. */
  function Edges(t: Topology, n: nat): (r: EdgeRange)
    requires ValidTopology(t) && n < NumNodes(t)
    ensures r.first <= r.last <= NumEdges(t)
    ensures r.last == t.outIndices[n]
    ensures r.last - r.first == OutDegree(t, n)
  {
    EdgeRange(if n == 0 then 0 else t.outIndices[n - 1], t.outIndices[n])
  }

  /** The number of out-edges of `n`, read directly off the prefix sums. */
  function OutDegree(t: Topology, n: nat): nat
    requires ValidTopology(t) && n < NumNodes(t)
  {
    if n == 0 then t.outIndices[0] else t.outIndices[n] - t.outIndices[n - 1]
  }

  function EdgeBegin(t: Topology, n: nat): (e: nat)
    requires ValidTopology(t) && n < NumNodes(t)
    ensures e == Edges(t, n).first
  {
    Edges(t, n).first
  }

  function EdgeEnd(t: Topology, n: nat): (e: nat)
    requires ValidTopology(t) && n < NumNodes(t)
    ensures e == Edges(t, n).last
  {
    Edges(t, n).last
  }

  /** Consecutive nodes' edge ranges tile `[0, NumEdges)`: the first starts at 0,
      each ends where the next begins, and the last ends at the edge count. */
  lemma EdgeRangesTile(t: Topology)
    requires ValidTopology(t) && NumNodes(t) > 0
    ensures EdgeBegin(t, 0) == 0
    ensures forall n :: 0 <= n < NumNodes(t) - 1 ==> EdgeEnd(t, n) == EdgeBegin(t, n + 1)
    ensures EdgeEnd(t, NumNodes(t) - 1) == NumEdges(t)
    ensures forall n :: 0 <= n < NumNodes(t) ==> EdgeBegin(t, n) <= EdgeEnd(t, n)
  {
  }

  /** Earlier nodes' edges come first: ranges of distinct nodes do not overlap. */
  lemma RangesOrdered(t: Topology)
    requires ValidTopology(t)
    ensures forall n, m :: 0 <= n < m < NumNodes(t) ==> EdgeEnd(t, n) <= EdgeBegin(t, m)
  {
    forall n, m | 0 <= n < m < NumNodes(t)
      ensures EdgeEnd(t, n) <= EdgeBegin(t, m)
    {
      assert t.outIndices[n] <= t.outIndices[m - 1];
    }
  }

  /** Every edge lies in the range of exactly one node. */
  lemma EdgeHasOneSource(t: Topology, e: nat)
    requires ValidTopology(t) && e < NumEdges(t)
    ensures exists n :: 0 <= n < NumNodes(t) && EdgeBegin(t, n) <= e < EdgeEnd(t, n)
    ensures forall n, m ::
      (0 <= n < NumNodes(t) && 0 <= m < NumNodes(t)
       && EdgeBegin(t, n) <= e < EdgeEnd(t, n) && EdgeBegin(t, m) <= e < EdgeEnd(t, m)) ==> n == m
  {
    var n := SourceOf(t, e, NumNodes(t) - 1);
    RangesOrdered(t);
  }

  /** The node among `0..hi` whose range holds `e`, found by walking down. */
  function SourceOf(t: Topology, e: nat, hi: nat): (n: nat)
    requires ValidTopology(t) && hi < NumNodes(t) && e < t.outIndices[hi]
    ensures n <= hi && EdgeBegin(t, n) <= e < EdgeEnd(t, n)
    decreases hi
  {
    if hi == 0 || t.outIndices[hi - 1] <= e then hi else SourceOf(t, e, hi - 1)
  }

  // ---------------------------------------------------------------------------
  // Columns and typed views

  /** A node or edge attribute column: its name, its encoded value type and one
      value per node (or edge). */
  datatype PropColumn = PropColumn(name: string, kind: nat, values: seq<int>)

  /** The loosely typed graph the facade is laid over. */
  datatype FileGraph = FileGraph(topology: Topology, nodeColumns: seq<PropColumn>, edgeColumns: seq<PropColumn>)

  predicate ValidFileGraph(g: FileGraph) {
    && ValidTopology(g.topology)
    && (forall c :: 0 <= c < |g.nodeColumns| ==> |g.nodeColumns[c].values| == NumNodes(g.topology))
    && (forall c :: 0 <= c < |g.edgeColumns| ==> |g.edgeColumns[c].values| == NumEdges(g.topology))
  }

  /** The schema's field names, in column order. */
  function FieldNames(columns: seq<PropColumn>): (names: seq<string>)
    ensures |names| == |columns|
    ensures forall c :: 0 <= c < |columns| ==> names[c] == columns[c].name
  {
    seq(|columns|, c requires 0 <= c < |columns| => columns[c].name)
  }

  /** The first column with the given name. */
  function FindColumn(columns: seq<PropColumn>, name: string): (r: Option<nat>)
    ensures r.Some? ==> r.value < |columns| && columns[r.value].name == name
    ensures r.Some? ==> forall c :: 0 <= c < r.value ==> columns[c].name != name
    ensures r.None? ==> forall c :: 0 <= c < |columns| ==> columns[c].name != name
    decreases |columns|
  {
    if |columns| == 0 then None
    else if columns[0].name == name then Some(0)
    else match FindColumn(columns[1..], name)
      case None => None
      case Some(c) => Some(c + 1)
  }

  /** With distinct field names, a field's own name finds exactly its column. */
  lemma {:induction false} FindColumnDistinct(columns: seq<PropColumn>, c: nat)
    requires c < |columns|
    requires forall i, j :: 0 <= i < j < |columns| ==> columns[i].name != columns[j].name
    ensures FindColumn(columns, columns[c].name) == Some(c)
    decreases |columns|
  {
    if c > 0 {
      FindColumnDistinct(columns[1..], c - 1);
    }
  }

  /** Whether position `p` of a property tuple declaring `kinds` can be bound to
      a column, given the requested names. */
  function BindOne(columns: seq<PropColumn>, names: seq<string>, kinds: seq<nat>, p: nat): (r: Result<nat>)
    requires p < |kinds|
    ensures r.Ok? <==>
      (p < |names| && FindColumn(columns, names[p]).Some?
       && columns[FindColumn(columns, names[p]).value].kind == kinds[p])
    ensures r.Ok? ==> r.value < |columns| && FindColumn(columns, names[p]) == Some(r.value)
    ensures r.Ok? ==> columns[r.value].name == names[p] && columns[r.value].kind == kinds[p]
    ensures r.Err? ==> r.error in {InvalidArgument, PropertyNotFound, TypeError}
  {
    if p >= |names| then Err(InvalidArgument)
    else match FindColumn(columns, names[p])
      case None => Err(PropertyNotFound)
      case Some(c) => if columns[c].kind != kinds[p] then Err(TypeError) else Ok(c)
  }

  /** `view` binds every position of the property tuple to its named column. */
  predicate Binds(columns: seq<PropColumn>, names: seq<string>, kinds: seq<nat>, view: seq<nat>) {
    && |view| == |kinds| && |kinds| <= |names|
    && forall p :: 0 <= p < |view| ==>
         view[p] < |columns| && FindColumn(columns, names[p]) == Some(view[p]) && columns[view[p]].kind == kinds[p]
  }

  /** Binds the property tuple position by position; the first position that
      has no requested name, no column of that name, or a column of another
      type fails the whole binding. */
  function MakeViews(columns: seq<PropColumn>, names: seq<string>, kinds: seq<nat>): (r: Result<seq<nat>>)
    ensures r.Ok? ==> Binds(columns, names, kinds, r.value)
    ensures r.Ok? <==> forall p :: 0 <= p < |kinds| ==> BindOne(columns, names, kinds, p).Ok?
    ensures r.Err? ==>
      exists p :: 0 <= p < |kinds| && BindOne(columns, names, kinds, p) == Err(r.error)
        && forall q :: 0 <= q < p ==> BindOne(columns, names, kinds, q).Ok?
  {
    BindFrom(columns, names, kinds, 0, [])
  }

  function BindFrom(columns: seq<PropColumn>, names: seq<string>, kinds: seq<nat>, p: nat, acc: seq<nat>)
    : (r: Result<seq<nat>>)
    requires p <= |kinds| && |acc| == p
    requires forall q :: 0 <= q < p ==> BindOne(columns, names, kinds, q) == Ok(acc[q])
    ensures r.Ok? ==> Binds(columns, names, kinds, r.value)
    ensures r.Ok? <==> forall q :: p <= q < |kinds| ==> BindOne(columns, names, kinds, q).Ok?
    ensures r.Err? ==>
      exists q :: p <= q < |kinds| && BindOne(columns, names, kinds, q) == Err(r.error)
        && forall j :: p <= j < q ==> BindOne(columns, names, kinds, j).Ok?
    decreases |kinds| - p
  {
    if p == |kinds| then
      assert |kinds| <= |names| by {
        if p > 0 {
          assert BindOne(columns, names, kinds, p - 1).Ok?;
        }
      }
      assert forall q :: 0 <= q < |acc| ==> BindOne(columns, names, kinds, q).Ok? && BindOne(columns, names, kinds, q).value == acc[q];
      Ok(acc)
    else match BindOne(columns, names, kinds, p)
      case Err(e) => Err(e)
      case Ok(c) => BindFrom(columns, names, kinds, p + 1, acc + [c])
  }

  /** A typed graph: the file graph plus, for each declared node (edge)
      property, the index of the column bound to it. */
  datatype Graph = Graph(file: FileGraph, nodeView: seq<nat>, edgeView: seq<nat>)

  predicate ValidGraph(g: Graph) {
    && ValidFileGraph(g.file)
    && (forall p :: 0 <= p < |g.nodeView| ==> g.nodeView[p] < |g.file.nodeColumns|)
    && (forall p :: 0 <= p < |g.edgeView| ==> g.edgeView[p] < |g.file.edgeColumns|)
  }

  /** Binds the node views first; only when they bind are the edge views
      attempted. */
  function Make(file: FileGraph, nodeNames: seq<string>, edgeNames: seq<string>,
                nodeKinds: seq<nat>, edgeKinds: seq<nat>): (r: Result<Graph>)
    ensures MakeViews(file.nodeColumns, nodeNames, nodeKinds).Err? ==>
      r == Err(MakeViews(file.nodeColumns, nodeNames, nodeKinds).error)
    ensures
      && MakeViews(file.nodeColumns, nodeNames, nodeKinds).Ok?
      && MakeViews(file.edgeColumns, edgeNames, edgeKinds).Err?
      ==> r == Err(MakeViews(file.edgeColumns, edgeNames, edgeKinds).error)
    ensures r.Ok? <==>
      MakeViews(file.nodeColumns, nodeNames, nodeKinds).Ok? && MakeViews(file.edgeColumns, edgeNames, edgeKinds).Ok?
    ensures r.Ok? ==>
      && r.value.file == file
      && Binds(file.nodeColumns, nodeNames, nodeKinds, r.value.nodeView)
      && Binds(file.edgeColumns, edgeNames, edgeKinds, r.value.edgeView)
    ensures r.Ok? && ValidFileGraph(file) ==> ValidGraph(r.value)
  {
    match MakeViews(file.nodeColumns, nodeNames, nodeKinds)
    case Err(e) => Err(e)
    case Ok(nodeView) =>
      match MakeViews(file.edgeColumns, edgeNames, edgeKinds)
      case Err(e) => Err(e)
      case Ok(edgeView) => Ok(Graph(file, nodeView, edgeView))
  }

  predicate DistinctNames(columns: seq<PropColumn>) {
    forall i, j :: 0 <= i < j < |columns| ==> columns[i].name != columns[j].name
  }

  /** The tuple declares no more properties than the schema has fields, and
      each declared type is that of the field at its position. */
  predicate KindsMatch(columns: seq<PropColumn>, kinds: seq<nat>) {
    |kinds| <= |columns| && forall p :: 0 <= p < |kinds| ==> columns[p].kind == kinds[p]
  }

  /** Binding by the schema's own field names, when those are distinct,
      succeeds exactly when the declared types match the fields in order, and
      binds each position to the column at that position. */
  lemma OwnNamesBind(columns: seq<PropColumn>, kinds: seq<nat>)
    ensures DistinctNames(columns) ==>
      (MakeViews(columns, FieldNames(columns), kinds).Ok? <==> KindsMatch(columns, kinds))
    ensures DistinctNames(columns) && MakeViews(columns, FieldNames(columns), kinds).Ok? ==>
      forall p :: 0 <= p < |kinds| ==> MakeViews(columns, FieldNames(columns), kinds).value[p] == p
  {
    if !DistinctNames(columns) {
      return;
    }
    var names := FieldNames(columns);
    forall p | 0 <= p < |kinds| && p < |columns|
      ensures FindColumn(columns, names[p]) == Some(p)
    {
      FindColumnDistinct(columns, p);
    }
    if MakeViews(columns, names, kinds).Ok? && |kinds| > 0 {
      assert BindOne(columns, names, kinds, |kinds| - 1).Ok?;
    }
  }

  /** Binds against every field of the node and edge schemas, in schema order. */
  function MakeAll(file: FileGraph, nodeKinds: seq<nat>, edgeKinds: seq<nat>): (r: Result<Graph>)
    ensures r == Make(file, FieldNames(file.nodeColumns), FieldNames(file.edgeColumns), nodeKinds, edgeKinds)
    ensures DistinctNames(file.nodeColumns) && DistinctNames(file.edgeColumns) ==>
      (r.Ok? <==> KindsMatch(file.nodeColumns, nodeKinds) && KindsMatch(file.edgeColumns, edgeKinds))
    ensures DistinctNames(file.nodeColumns) && DistinctNames(file.edgeColumns) && r.Ok? ==>
      && (forall p :: 0 <= p < |nodeKinds| ==> r.value.nodeView[p] == p)
      && (forall p :: 0 <= p < |edgeKinds| ==> r.value.edgeView[p] == p)
  {
    OwnNamesBind(file.nodeColumns, nodeKinds);
    OwnNamesBind(file.edgeColumns, edgeKinds);
    Make(file, FieldNames(file.nodeColumns), FieldNames(file.edgeColumns), nodeKinds, edgeKinds)
  }

  /** With every schema name requested, a binding can only fail on a type
      mismatch or because the tuple declares more properties than the schema
      has fields. */
  lemma MakeAllErrors(file: FileGraph, nodeKinds: seq<nat>, edgeKinds: seq<nat>)
    requires MakeAll(file, nodeKinds, edgeKinds).Err?
    ensures MakeAll(file, nodeKinds, edgeKinds).error in {TypeError, InvalidArgument}
  {
    var names := FieldNames(file.nodeColumns);
    var nr := MakeViews(file.nodeColumns, names, nodeKinds);
    if nr.Err? {
      var p :| 0 <= p < |nodeKinds| && BindOne(file.nodeColumns, names, nodeKinds, p) == Err(nr.error);
      if p < |names| {
        assert FindColumn(file.nodeColumns, names[p]).Some?;
      }
    } else {
      var enames := FieldNames(file.edgeColumns);
      var er := MakeViews(file.edgeColumns, enames, edgeKinds);
      var p :| 0 <= p < |edgeKinds| && BindOne(file.edgeColumns, enames, edgeKinds, p) == Err(er.error);
      if p < |enames| {
        assert FindColumn(file.edgeColumns, enames[p]).Some?;
      }
    }
  }

  // ---------------------------------------------------------------------------
  // Accessors

  function Begin(g: Graph): nat {
    0
  }

  /** One past the last node id. Node ids are `uint32_t` while the node count
      is 64-bit, so the end iterator holds the count's low 32 bits. */
  function End(g: Graph): nat {
    NumNodes(g.file.topology) % (Uint32Max + 1)
  }

  function Size(g: Graph): nat {
    NumNodes(g.file.topology)
  }

  predicate Empty(g: Graph) {
    NumNodes(g.file.topology) == 0
  }

  /** The nodes an iteration from Begin to End visits: each id once, in
      order. Every node is visited exactly when the node count fits in a
      node id; from 2^32 nodes on, the truncated end stops the iteration
      short. */
  function Nodes(g: Graph): (r: seq<nat>)
    ensures forall i :: 0 <= i < |r| ==> r[i] == Begin(g) + i
    ensures |r| == Size(g) <==> Size(g) <= Uint32Max
    ensures |r| <= Size(g)
    ensures Size(g) <= Uint32Max ==> (Empty(g) <==> |r| == 0)
  {
    var n := End(g) - Begin(g);
    seq(n, i requires 0 <= i < n => i)
  }

  /** The value of declared node property `p` at `node`. */
  function GetData(g: Graph, p: nat, node: nat): int
    requires ValidGraph(g) && p < |g.nodeView| && node < NumNodes(g.file.topology)
  {
    g.file.nodeColumns[g.nodeView[p]].values[node]
  }

  /** The value of declared edge property `p` at `edge`. */
  function GetEdgeData(g: Graph, p: nat, edge: nat): int
    requires ValidGraph(g) && p < |g.edgeView| && edge < NumEdges(g.file.topology)
  {
    g.file.edgeColumns[g.edgeView[p]].values[edge]
  }

  /** A graph built by Make reads declared property `p` from the first column
      carrying the `p`-th requested name. */
  lemma MadeGraphReadsNamedColumns(file: FileGraph, nodeNames: seq<string>, edgeNames: seq<string>,
                                   nodeKinds: seq<nat>, edgeKinds: seq<nat>)
    requires ValidFileGraph(file)
    requires Make(file, nodeNames, edgeNames, nodeKinds, edgeKinds).Ok?
    ensures var g := Make(file, nodeNames, edgeNames, nodeKinds, edgeKinds).value;
      && ValidGraph(g) && |g.nodeView| == |nodeKinds| && |g.edgeView| == |edgeKinds|
      && (forall p, n :: 0 <= p < |nodeKinds| && 0 <= n < NumNodes(file.topology) ==>
            && FindColumn(file.nodeColumns, nodeNames[p]).Some?
            && GetData(g, p, n) == file.nodeColumns[FindColumn(file.nodeColumns, nodeNames[p]).value].values[n])
      && (forall p, e :: 0 <= p < |edgeKinds| && 0 <= e < NumEdges(file.topology) ==>
            && FindColumn(file.edgeColumns, edgeNames[p]).Some?
            && GetEdgeData(g, p, e) == file.edgeColumns[FindColumn(file.edgeColumns, edgeNames[p]).value].values[e])
  {
  }

  /** The node an edge points to. */
  function GetEdgeDest(g: Graph, edge: nat): (n: nat)
    requires ValidGraph(g) && edge < NumEdges(g.file.topology)
    ensures n < NumNodes(g.file.topology)
  {
    g.file.topology.outDests[edge]
  }

  // ---------------------------------------------------------------------------
  // Searching a sorted edge list

  /** The edges of `node` are ordered by destination. */
  predicate SortedByDest(t: Topology, node: nat)
    requires ValidTopology(t) && node < NumNodes(t)
  {
    forall i, j :: EdgeBegin(t, node) <= i < j < EdgeEnd(t, node) ==> t.outDests[i] <= t.outDests[j]
  }

  /** Binary search for an edge from `node` to `target`: such an edge when one
      exists, and otherwise the end of `node`'s edge range. */
  method FindEdgeSortedByDest(g: Graph, node: nat, target: nat) returns (e: nat)
    requires ValidGraph(g) && node < NumNodes(g.file.topology)
    requires SortedByDest(g.file.topology, node)
    ensures EdgeBegin(g.file.topology, node) <= e <= EdgeEnd(g.file.topology, node)
    ensures e < EdgeEnd(g.file.topology, node) ==> g.file.topology.outDests[e] == target
    ensures e == EdgeEnd(g.file.topology, node) <==>
      forall k :: EdgeBegin(g.file.topology, node) <= k < EdgeEnd(g.file.topology, node) ==>
        g.file.topology.outDests[k] != target
  {
    var t := g.file.topology;
    var first := EdgeBegin(t, node);
    var last := EdgeEnd(t, node);
    var lo, hi := first, last;
    while lo < hi
      invariant first <= lo <= hi <= last
      invariant forall k :: first <= k < lo ==> t.outDests[k] < target
      invariant forall k :: hi <= k < last ==> t.outDests[k] >= target
      decreases hi - lo
    {
      var mid := lo + (hi - lo) / 2;
      if t.outDests[mid] < target {
        lo := mid + 1;
      } else {
        hi := mid;
      }
    }
    if lo < last && t.outDests[lo] == target {
      e := lo;
    } else {
      e := last;
    }
  }
}

=== FILE: rdg.dfy ===
/** The commit and load control flow of one graph partition
    (libtsuba/src/RDG.cpp): `CommitRDG`, `DoStore`, `Store`, `DoMake` and the
    two `Make` entry points, plus the property-adding wrappers. Every outcome
    of I/O, distributed coordination or unseen collaborator code (write-group
    completion, the naming service, the one-host metadata write, header
    parsing and writing, property pruning, column loading, topology binding)
    is an oracle the caller supplies, so each operation is a pure function of
    the partition, the handle and those outcomes. */
module Rdg {
  import opened Errors
  import opened PropStorage

  // ---------------------------------------------------------------------------
  // Versions, handles, hosts

  /** The cached description of one committed version of a partitioned graph. */
  datatype RDGMeta = RDGMeta(dir: string, version: nat, numHosts: nat, policyId: nat, transposed: bool,
                             lineage: seq<string>)

  /** The description of the version a commit produces: one past the current
      version, in the same directory, with the committing hosts' parameters. */
  function NextVersion(meta: RDGMeta, numHosts: nat, policyId: nat, transposed: bool, lineage: seq<string>)
    : RDGMeta
  {
    RDGMeta(meta.dir, meta.version + 1, numHosts, policyId, transposed, lineage)
  }

  /** A partition that has never been committed carries no host count. */
  predicate IsEmptyRDG(meta: RDGMeta) {
    meta.numHosts == 0
  }

  /** An open graph: the cached version description and the access mode. */
  datatype Handle = Handle(meta: RDGMeta, allowsRead: bool, allowsWrite: bool)

  /** The communication backend as this host sees it: host count and own id. */
  datatype Comm = Comm(num: nat, id: nat)

  // ---------------------------------------------------------------------------
  // The partition

  /** The per-partition header: where the topology and every column live. */
  datatype PartHeader = PartHeader(
    topologyPath: string,
    nodeProps: seq<PropStorageInfo>,
    edgeProps: seq<PropStorageInfo>,
    partProps: seq<PropStorageInfo>,
    policyId: nat,
    transposed: bool)

  /** One partition in memory. `rdgDir` is the directory it was loaded from,
      empty for a partition built in memory. */
  datatype RDG = RDG(
    header: PartHeader,
    nodeTable: Table,
    edgeTable: Table,
    parts: PartArrays,
    lineage: seq<string>,
    rdgDir: string)

  /** Forgets every file location, so that the next commit writes everything
      again (used before committing into a directory other than the one the
      partition came from). */
  function ClearPaths(props: seq<PropStorageInfo>): (r: seq<PropStorageInfo>)
    ensures |r| == |props|
    ensures forall i :: 0 <= i < |props| ==> r[i] == props[i].(path := "")
  {
    seq(|props|, i requires 0 <= i < |props| => props[i].(path := ""))
  }

  function UnbindFromStorage(header: PartHeader): (r: PartHeader)
    ensures r.topologyPath == ""
    ensures r.nodeProps == ClearPaths(header.nodeProps) && r.edgeProps == ClearPaths(header.edgeProps)
    ensures r.partProps == ClearPaths(header.partProps)
    ensures r.policyId == header.policyId && r.transposed == header.transposed
  {
    header.(topologyPath := "", nodeProps := ClearPaths(header.nodeProps),
            edgeProps := ClearPaths(header.edgeProps), partProps := ClearPaths(header.partProps))
  }

  /** Every persistent entry of the list has a column in the table. */
  predicate PersistInTable(table: Table, props: seq<PropStorageInfo>) {
    forall i :: 0 <= i < |props| && props[i].persist ==> i < |table.columns|
  }

  lemma ClearedDirtyInTable(table: Table, props: seq<PropStorageInfo>)
    requires PersistInTable(table, props)
    ensures DirtyInTable(table, ClearPaths(props))
  {
  }

  /** What DoStore needs of the partition: every entry it may write has a column. */
  predicate Writable(rdg: RDG) {
    DirtyInTable(rdg.nodeTable, rdg.header.nodeProps) && DirtyInTable(rdg.edgeTable, rdg.header.edgeProps)
  }

  /** What Store needs when committing into `dir`: Writable, and, when `dir`
      is not the partition's own directory, every persistent column present. */
  predicate StoreReady(rdg: RDG, dir: string) {
    && Writable(rdg)
    && (dir != rdg.rdgDir ==>
          PersistInTable(rdg.nodeTable, rdg.header.nodeProps) && PersistInTable(rdg.edgeTable, rdg.header.edgeProps))
  }

  /** The table columns and the storage-info lists correspond one to one. */
  predicate WellFormed(rdg: RDG) {
    Aligned(rdg.nodeTable, rdg.header.nodeProps) && Aligned(rdg.edgeTable, rdg.header.edgeProps)
  }

  /** The invariant every partition keeps lets it be stored anywhere. */
  lemma WellFormedStoreReady(rdg: RDG, dir: string)
    requires WellFormed(rdg)
    ensures StoreReady(rdg, dir)
  {
  }

  // ---------------------------------------------------------------------------
  // I/O outcomes of a commit

  /** Observable effects of a commit on the world outside the partition. */
  datatype Event =
    | Barrier
      /** The naming service is asked to move `dir` from `fromVersion` to `meta`;
          `outcome` is what it answered. */
    | NamingUpdate(dir: string, fromVersion: nat, meta: RDGMeta, outcome: Status)
      /** The version-description file of `version` is written under `dir`. */
    | MetaFileWrite(dir: string, version: nat)

  datatype StoreIo = StoreIo(
    /** Encoding and file creation of one column. */
    store: StoreOracle,
    /** The random part of a generated file name, for the k-th queued write. */
    randSuffix: nat -> string,
    /** Serialising and queueing the partition header. */
    headerWrite: PartHeader -> Status,
    /** Creating the write group. */
    writeGroupMake: Status,
    /** Waiting for every queued write of the group. */
    finish: WriteGroup -> Status,
    /** The naming-service update. */
    nsUpdate: Status,
    /** The single-host write of the new version description. */
    metaWrite: Status)

  /** The base name of a freshly generated file under the commit directory. */
  function RandFile(prefix: string, k: nat, io: StoreIo): (name: string)
    ensures StartsWith(name, prefix) && |name| > |prefix|
  {
    RandName(prefix, io.randSuffix(k))
  }

  const TopologyPrefix := "topology"

  datatype Commit = Commit(status: Status, handle: Handle, events: seq<Event>)

  /** Publishes the version the queued writes make up. The naming-service
      answer is only logged, so it never decides the outcome; the handle's
      cached description advances exactly when the description file is
      written. */
  function CommitRDG(handle: Handle, comm: Comm, policyId: nat, transposed: bool, lineage: seq<string>,
                     wg: WriteGroup, io: StoreIo): (r: Commit)
    ensures r.status.Ok? <==> io.finish(wg).Ok? && io.metaWrite.Ok?
    ensures r.status.Ok? ==> r.handle == handle.(meta := NextVersion(handle.meta, comm.num, policyId, transposed, lineage))
    ensures r.status.Err? ==> r.handle == handle
    ensures io.finish(wg).Err? ==> r.status == io.finish(wg) && r.events == []
    ensures io.finish(wg).Ok? && io.metaWrite.Err? ==> r.status == io.metaWrite
    ensures io.finish(wg).Ok? ==> r.events == [
      Barrier,
      NamingUpdate(handle.meta.dir, handle.meta.version,
                   NextVersion(handle.meta, comm.num, policyId, transposed, lineage), io.nsUpdate),
      MetaFileWrite(handle.meta.dir, handle.meta.version + 1)]
  {
    var next := NextVersion(handle.meta, comm.num, policyId, transposed, lineage);
    var finished := io.finish(wg);
    if finished.Err? then Commit(finished, handle, [])
    else
      var events := [Barrier, NamingUpdate(handle.meta.dir, handle.meta.version, next, io.nsUpdate),
                     MetaFileWrite(handle.meta.dir, next.version)];
      if io.metaWrite.Err? then Commit(io.metaWrite, handle, events)
      else Commit(Success, handle.(meta := next), events)
  }

  /** The naming service is told about the new version before its description
      file is written, and a failed description write fails the commit
      without withdrawing that update. */
  lemma PublishedBeforeDurable(handle: Handle, comm: Comm, policyId: nat, transposed: bool, lineage: seq<string>,
                               wg: WriteGroup, io: StoreIo)
    requires io.finish(wg).Ok? && io.nsUpdate.Ok? && io.metaWrite.Err?
    ensures var c := CommitRDG(handle, comm, policyId, transposed, lineage, wg, io);
      && c.status.Err?
      && c.handle == handle
      && exists k :: 0 <= k < |c.events| && c.events[k].NamingUpdate? && c.events[k].outcome.Ok?
                      && c.events[k].meta.version == handle.meta.version + 1
  {
    var c := CommitRDG(handle, comm, policyId, transposed, lineage, wg, io);
    assert c.events[1].NamingUpdate?;
  }

  // ---------------------------------------------------------------------------
  // Writing a partition

  /** Queues a topology file when the header names none yet. */
  function EnsureTopology(rdg: RDG, wg: WriteGroup, io: StoreIo): (r: (RDG, WriteGroup))
    ensures r.0 == rdg.(header := r.0.header)
    ensures r.0.header == rdg.header.(topologyPath := r.0.header.topologyPath)
    ensures r.0.header.topologyPath != ""
    ensures rdg.header.topologyPath != "" ==> r == (rdg, wg)
    ensures rdg.header.topologyPath == "" ==>
      r.1.queued == wg.queued + [TopologyFile(r.0.header.topologyPath)]
  {
    if rdg.header.topologyPath == "" then
      var t := RandFile(TopologyPrefix, |wg.queued|, io);
      (rdg.(header := rdg.header.(topologyPath := t)), WriteGroup(wg.queued + [TopologyFile(t)]))
    else (rdg, wg)
  }

  /** `out` is `props` after a write: same entries, same names and flags,
      and only entries that were dirty may have a new file. */
  predicate PathsFilled(props: seq<PropStorageInfo>, out: seq<PropStorageInfo>) {
    && |out| == |props|
    && forall i :: 0 <= i < |props| ==>
         out[i] == props[i].(path := out[i].path) && (!Dirty(props[i]) ==> out[i] == props[i])
  }

  /** The state a pre-commit stage leaves: an error (with the partially updated
      partition) or the updated partition; either way the writes queued so far. */
  datatype Staged = Staged(status: Status, rdg: RDG, wg: WriteGroup)

  /** The number of writes a fully successful DoStore queues. */
  function WriteCount(rdg: RDG): nat {
    (if rdg.header.topologyPath == "" then 1 else 0)
    + |DirtyIndices(rdg.header.nodeProps)| + |DirtyIndices(rdg.header.edgeProps)|
    + PartArrayCount(rdg.parts) + 1
  }

  /** `wg'` is `wg` with `n` more writes queued after the existing ones. */
  predicate Extends(wg: WriteGroup, wg': WriteGroup, n: nat) {
    |wg'.queued| == |wg.queued| + n && wg'.queued[..|wg.queued|] == wg.queued
  }

  lemma ExtendsTrans(wg1: WriteGroup, wg2: WriteGroup, wg3: WriteGroup, m: nat, n: nat)
    requires Extends(wg1, wg2, m) && Extends(wg2, wg3, n)
    ensures Extends(wg1, wg3, m + n)
  {
    assert wg3.queued[..|wg1.queued|] == wg3.queued[..|wg2.queued|][..|wg1.queued|];
  }

  /** The dirty node columns, then the dirty edge columns. A failure of the
      edge write leaves the node list already updated. */
  function WriteAttributeTables(rdg: RDG, wg: WriteGroup, io: StoreIo): (r: Staged)
    requires Writable(rdg)
    ensures r.rdg == rdg.(header := r.rdg.header)
    ensures r.rdg.header == rdg.header.(nodeProps := r.rdg.header.nodeProps, edgeProps := r.rdg.header.edgeProps)
    ensures PathsFilled(rdg.header.nodeProps, r.rdg.header.nodeProps)
    ensures PathsFilled(rdg.header.edgeProps, r.rdg.header.edgeProps)
    ensures Writable(r.rdg)
    ensures r.status.Ok? ==>
      Extends(wg, r.wg, |DirtyIndices(rdg.header.nodeProps)| + |DirtyIndices(rdg.header.edgeProps)|)
    ensures r.status.Ok? ==>
      Clean(r.rdg.header.nodeProps) && Clean(r.rdg.header.edgeProps)
  {
    var h := rdg.header;
    match WriteTable(rdg.nodeTable, h.nodeProps, wg, io.store)
    case Err(e) =>
      PathsFilledRefl(h.nodeProps);
      PathsFilledRefl(h.edgeProps);
      Staged(Err(e), rdg, wg)
    case Ok((nodeProps, wg1)) =>
      WrittenFills(rdg.nodeTable, h.nodeProps, wg, io.store, nodeProps, wg1);
      var rdg1 := rdg.(header := h.(nodeProps := nodeProps));
      match WriteTable(rdg.edgeTable, h.edgeProps, wg1, io.store)
      case Err(e) =>
        PathsFilledRefl(h.edgeProps);
        Staged(Err(e), rdg1, wg1)
      case Ok((edgeProps, wg2)) =>
        WrittenFills(rdg.edgeTable, h.edgeProps, wg1, io.store, edgeProps, wg2);
        ExtendsTrans(wg, wg1, wg2, |DirtyIndices(h.nodeProps)|, |DirtyIndices(h.edgeProps)|);
        WriteTableCleans(rdg.nodeTable, h.nodeProps, wg, io.store);
        WriteTableCleans(rdg.edgeTable, h.edgeProps, wg1, io.store);
        Staged(Success, rdg1.(header := rdg1.header.(edgeProps := edgeProps)), wg2)
  }

  /** Every partition array, then the header. */
  function WritePartitionFiles(rdg: RDG, wg: WriteGroup, io: StoreIo): (r: Staged)
    ensures r.rdg == rdg.(header := r.rdg.header)
    ensures r.rdg.header == rdg.header.(partProps := r.rdg.header.partProps)
    ensures r.status.Ok? ==> Extends(wg, r.wg, PartArrayCount(rdg.parts) + 1)
    ensures r.status.Ok? ==> r.wg.queued[|r.wg.queued| - 1] == HeaderFile
    ensures r.status.Ok? ==> io.headerWrite(r.rdg.header).Ok?
    ensures r.status.Ok? ==>
      && |r.rdg.header.partProps| == PartArrayCount(rdg.parts)
      && forall k :: 0 <= k < PartArrayCount(rdg.parts) ==>
           r.rdg.header.partProps[k] == PropStorageInfo(PartCalls(rdg.parts)[k].name, r.rdg.header.partProps[k].path, true)
  {
    match WritePartArrays(rdg.parts, wg, io.store)
    case Err(e) => Staged(Err(e), rdg, wg)
    case Ok((partProps, wg1)) =>
      var rdg1 := rdg.(header := rdg.header.(partProps := partProps));
      var written := io.headerWrite(rdg1.header);
      if written.Err? then Staged(written, rdg1, wg1)
      else
        var wg2 := WriteGroup(wg1.queued + [HeaderFile]);
        assert wg2.queued[..|wg1.queued|] == wg1.queued;
        ExtendsTrans(wg, wg1, wg2, PartArrayCount(rdg.parts), 1);
        Staged(Success, rdg1, wg2)
  }

  /** Everything DoStore does before the commit: the topology when missing,
      the dirty node columns, the dirty edge columns, every partition array,
      then the header. The first failure stops the sequence and leaves the
      storage-info lists of the stages that completed updated. */
  function WriteAll(rdg: RDG, wg: WriteGroup, io: StoreIo): (r: Staged)
    requires Writable(rdg)
    ensures r.rdg == rdg.(header := r.rdg.header)
    ensures r.rdg.header.policyId == rdg.header.policyId && r.rdg.header.transposed == rdg.header.transposed
    ensures PathsFilled(rdg.header.nodeProps, r.rdg.header.nodeProps)
    ensures PathsFilled(rdg.header.edgeProps, r.rdg.header.edgeProps)
    ensures Writable(r.rdg)
    ensures r.status.Ok? ==> Extends(wg, r.wg, WriteCount(rdg))
    ensures r.status.Ok? ==> r.wg.queued[|r.wg.queued| - 1] == HeaderFile
    ensures r.status.Ok? ==> io.headerWrite(r.rdg.header).Ok? && r.rdg.header.topologyPath != ""
    ensures r.status.Ok? ==>
      Clean(r.rdg.header.nodeProps) && Clean(r.rdg.header.edgeProps)
    ensures r.status.Ok? ==>
      && |r.rdg.header.partProps| == PartArrayCount(rdg.parts)
      && forall k :: 0 <= k < PartArrayCount(rdg.parts) ==>
           r.rdg.header.partProps[k] == PropStorageInfo(PartCalls(rdg.parts)[k].name, r.rdg.header.partProps[k].path, true)
  {
    var (rdg1, wg1) := EnsureTopology(rdg, wg, io);
    var topo := if rdg.header.topologyPath == "" then 1 else 0;
    assert Extends(wg, wg1, topo) by {
      if topo == 1 {
        assert wg1.queued[..|wg.queued|] == wg.queued;
      }
    }
    var a := WriteAttributeTables(rdg1, wg1, io);
    if a.status.Err? then a
    else
      var b := WritePartitionFiles(a.rdg, a.wg, io);
      if b.status.Err? then b
      else
        ExtendsTrans(wg, wg1, a.wg, topo,
                     |DirtyIndices(rdg.header.nodeProps)| + |DirtyIndices(rdg.header.edgeProps)|);
        ExtendsTrans(wg, a.wg, b.wg, topo + |DirtyIndices(rdg.header.nodeProps)| + |DirtyIndices(rdg.header.edgeProps)|,
                     PartArrayCount(rdg.parts) + 1);
        b
  }

  lemma PathsFilledRefl(props: seq<PropStorageInfo>)
    ensures PathsFilled(props, props)
  {
  }

  lemma WrittenFills(table: Table, props: seq<PropStorageInfo>, wg: WriteGroup, store: StoreOracle,
                     out: seq<PropStorageInfo>, wg': WriteGroup)
    requires DirtyInTable(table, props)
    requires IncrementallyWritten(table, props, wg, store, out, wg')
    ensures PathsFilled(props, out) && DirtyInTable(table, out)
    ensures |wg'.queued| == |wg.queued| + |DirtyIndices(props)| && wg'.queued[..|wg.queued|] == wg.queued
  {
  }

  /** What Store and DoStore report: the status, the partition as the call
      leaves it, the handle, the writes queued, and the commit's effects. */
  datatype StoreOutcome = StoreOutcome(status: Status, rdg: RDG, handle: Handle, queued: WriteGroup, events: seq<Event>)

  /** Writes the partition into the handle's directory and commits it as the
      next version; the command line joins the lineage once every write is
      queued. */
  function DoStore(rdg: RDG, handle: Handle, comm: Comm, commandLine: string, wg: WriteGroup, io: StoreIo)
    : (r: StoreOutcome)
    requires Writable(rdg)
    ensures r.rdg.nodeTable == rdg.nodeTable && r.rdg.edgeTable == rdg.edgeTable
    ensures r.rdg.parts == rdg.parts && r.rdg.rdgDir == rdg.rdgDir
    ensures r.status.Err? ==> r.handle == handle
    ensures r.rdg.lineage == if WriteAll(rdg, wg, io).status.Ok? then rdg.lineage + [commandLine] else rdg.lineage
    ensures r.status.Ok? ==> r.rdg.lineage == rdg.lineage + [commandLine]
    ensures r.status.Ok? ==>
      r.handle == handle.(meta := NextVersion(handle.meta, comm.num, rdg.header.policyId, rdg.header.transposed,
                                              rdg.lineage + [commandLine]))
    ensures r.status.Ok? ==> io.finish(r.queued).Ok? && Extends(wg, r.queued, WriteCount(rdg))
    ensures r.events != [] ==> io.finish(r.queued).Ok? && io.headerWrite(r.rdg.header).Ok?
    ensures r.status.Ok? ==>
      Clean(r.rdg.header.nodeProps) && Clean(r.rdg.header.edgeProps) && r.rdg.header.topologyPath != ""
    ensures PathsFilled(rdg.header.nodeProps, r.rdg.header.nodeProps)
    ensures PathsFilled(rdg.header.edgeProps, r.rdg.header.edgeProps)
    ensures Writable(r.rdg)
  {
    var staged := WriteAll(rdg, wg, io);
    if staged.status.Err? then StoreOutcome(staged.status, staged.rdg, handle, staged.wg, [])
    else
      var rdg' := staged.rdg.(lineage := rdg.lineage + [commandLine]);
      var c := CommitRDG(handle, comm, rdg'.header.policyId, rdg'.header.transposed, rdg'.lineage, staged.wg, io);
      StoreOutcome(c.status, rdg', c.handle, staged.wg, c.events)
  }

  /** The partition DoStore works on: with every file location forgotten when
      committing into a directory other than its own. */
  function Rebased(rdg: RDG, dir: string): (r: RDG)
    ensures r == rdg.(header := r.header)
    ensures dir == rdg.rdgDir ==> r == rdg
    ensures dir != rdg.rdgDir ==> r.header == UnbindFromStorage(rdg.header)
  {
    if dir != rdg.rdgDir then rdg.(header := UnbindFromStorage(rdg.header)) else rdg
  }

  /** Commits the partition through a handle: rejects a read-only handle,
      forgets all file locations when committing into a directory other than
      the partition's own, creates the write group, queues a replacement
      topology when one is supplied, then runs DoStore. The partition's own
      directory is left as it was. */
  function Store(rdg: RDG, handle: Handle, comm: Comm, commandLine: string, newTopology: bool, io: StoreIo)
    : (r: StoreOutcome)
    requires handle.allowsWrite ==> StoreReady(rdg, handle.meta.dir)
    ensures !handle.allowsWrite ==> r == StoreOutcome(Err(InvalidArgument), rdg, handle, WriteGroup([]), [])
    ensures r.status.Ok? ==> handle.allowsWrite && io.writeGroupMake.Ok?
    ensures r.status.Err? ==> r.handle == handle
    ensures r.status.Ok? ==> r.handle.meta.version == handle.meta.version + 1 && r.handle.meta.dir == handle.meta.dir
    ensures r.status.Ok? ==>
      r.handle.meta == NextVersion(handle.meta, comm.num, r.rdg.header.policyId, r.rdg.header.transposed, r.rdg.lineage)
    ensures r.status.Ok? ==> r.rdg.lineage == rdg.lineage + [commandLine]
    ensures r.rdg.lineage == rdg.lineage || r.rdg.lineage == rdg.lineage + [commandLine]
    ensures handle.allowsWrite && io.writeGroupMake.Ok? && !newTopology ==>
      (r.rdg.lineage == rdg.lineage + [commandLine] <==>
       WriteAll(Rebased(rdg, handle.meta.dir), WriteGroup([]), io).status.Ok?)
    ensures r.events != [] ==> r.rdg.lineage == rdg.lineage + [commandLine]
    ensures r.status.Ok? ==>
      Clean(r.rdg.header.nodeProps) && Clean(r.rdg.header.edgeProps) && r.rdg.header.topologyPath != ""
    ensures r.status.Ok? && !newTopology ==> |r.queued.queued| == WriteCount(Rebased(rdg, handle.meta.dir))
    ensures handle.allowsWrite ==>
      && PathsFilled(Rebased(rdg, handle.meta.dir).header.nodeProps, r.rdg.header.nodeProps)
      && PathsFilled(Rebased(rdg, handle.meta.dir).header.edgeProps, r.rdg.header.edgeProps)
    ensures r.rdg.rdgDir == rdg.rdgDir && r.rdg.nodeTable == rdg.nodeTable && r.rdg.edgeTable == rdg.edgeTable
    ensures r.rdg.parts == rdg.parts
    ensures handle.allowsWrite ==> Writable(r.rdg)
    ensures WellFormed(rdg) ==> WellFormed(r.rdg)
  {
    if !handle.allowsWrite then StoreOutcome(Err(InvalidArgument), rdg, handle, WriteGroup([]), [])
    else
      var rdg1 := Rebased(rdg, handle.meta.dir);
      if io.writeGroupMake.Err? then
        PathsFilledRefl(rdg1.header.nodeProps);
        PathsFilledRefl(rdg1.header.edgeProps);
        StoreOutcome(io.writeGroupMake, rdg1, handle, WriteGroup([]), [])
      else if newTopology then
        var t := RandFile(TopologyPrefix, 0, io);
        DoStore(rdg1.(header := rdg1.header.(topologyPath := t)), handle, comm, commandLine, WriteGroup([TopologyFile(t)]), io)
      else
        DoStore(rdg1, handle, comm, commandLine, WriteGroup([]), io)
  }

  lemma CleanFilledUnchanged(props: seq<PropStorageInfo>, out: seq<PropStorageInfo>)
    requires Clean(props) && PathsFilled(props, out)
    ensures out == props
  {
  }

  /** Committing the same partition twice into the directory it was loaded
      from rewrites no attribute column and no topology the second time: the
      second commit queues only the partition arrays and the header. */
  lemma StoreTwiceRewritesNoColumns(rdg: RDG, handle: Handle, comm: Comm, cmd1: string, cmd2: string,
                                    newTopology: bool, io1: StoreIo, io2: StoreIo)
    requires handle.allowsWrite && StoreReady(rdg, handle.meta.dir) && rdg.rdgDir == handle.meta.dir
    requires Store(rdg, handle, comm, cmd1, newTopology, io1).status.Ok?
    ensures var first := Store(rdg, handle, comm, cmd1, newTopology, io1);
      && first.handle.allowsWrite && StoreReady(first.rdg, first.handle.meta.dir)
      && var second := Store(first.rdg, first.handle, comm, cmd2, false, io2);
         && second.rdg.header.nodeProps == first.rdg.header.nodeProps
         && second.rdg.header.edgeProps == first.rdg.header.edgeProps
         && (second.status.Ok? ==> |second.queued.queued| == PartArrayCount(rdg.parts) + 1)
  {
    var first := Store(rdg, handle, comm, cmd1, newTopology, io1);
    var h := first.rdg.header;
    CleanHasNoDirtyIndices(h.nodeProps);
    CleanHasNoDirtyIndices(h.edgeProps);
    var second := Store(first.rdg, first.handle, comm, cmd2, false, io2);
    CleanFilledUnchanged(h.nodeProps, second.rdg.header.nodeProps);
    CleanFilledUnchanged(h.edgeProps, second.rdg.header.edgeProps);
  }

  /** A commit whose queued writes fail still leaves the new file names in the
      storage-info lists, so a retry into the same directory writes none of
      those columns again; and the command line has already joined the
      lineage, so a retry records it twice. */
  lemma FailedFinishKeepsNewPaths(rdg: RDG, handle: Handle, comm: Comm, cmd: string, io: StoreIo)
    requires Writable(rdg)
    requires WriteAll(rdg, WriteGroup([]), io).status.Ok?
    requires io.finish(WriteAll(rdg, WriteGroup([]), io).wg).Err?
    ensures var r := DoStore(rdg, handle, comm, cmd, WriteGroup([]), io);
      && r.status.Err? && r.handle == handle && r.events == []
      && Clean(r.rdg.header.nodeProps) && Clean(r.rdg.header.edgeProps)
      && r.rdg.lineage == rdg.lineage + [cmd]
  {
  }

  // ---------------------------------------------------------------------------
  // Loading a partition

  /** The header file of host `host`'s partition of version `version`. */
  datatype PartitionFile = PartitionFile(dir: string, host: nat, version: nat)

  /** A column file read back as a table: it always holds at least one column. */
  type LoadedFile = t: Table | |t.columns| > 0 witness Table(0, [Column("", ArrayData(0, 0))])

  /** Fetching and decoding the column file an entry names, under a directory. */
  type Loader = (string, PropStorageInfo) -> Result<LoadedFile>

  datatype MakeIo = MakeIo(
    /** Reading and parsing a partition header. */
    readHeader: PartitionFile -> Result<PartHeader>,
    /** Restricting the header to the requested properties. */
    prune: PartHeader -> Result<PartHeader>,
    load: Loader,
    /** Mapping the topology file at a path. */
    bind: string -> Status)

  const EmptyTable := Table(0, [])

  function JoinPath(dir: string, name: string): string {
    dir + "/" + name
  }

  /** Loads the column file of every entry in order and appends its columns
      to `table`, stopping at the first failed load or row-count mismatch. */
  function LoadColumns(dir: string, props: seq<PropStorageInfo>, table: Table, load: Loader): (r: Result<Table>)
    ensures r.Ok? ==> forall k :: 0 <= k < |props| ==> load(dir, props[k]).Ok?
    ensures r.Ok? ==> |r.value.columns| >= |table.columns| && r.value.columns[..|table.columns|] == table.columns
    ensures r.Ok? && (forall k :: 0 <= k < |props| ==> load(dir, props[k]).Ok? ==> |load(dir, props[k]).value.columns| == 1)
      ==> |r.value.columns| == |table.columns| + |props|
    ensures r.Err? ==>
      r.error == InvalidArgument || exists k :: 0 <= k < |props| && load(dir, props[k]) == Err(r.error)
    decreases |props|
  {
    if |props| == 0 then Ok(table)
    else
      match load(dir, props[0])
      case Err(e) => Err(e)
      case Ok(t) =>
        match AppendColumns(table, t)
        case Err(e) => Err(e)
        case Ok(table1) =>
          var rest := LoadColumns(dir, props[1..], table1, load);
          assert forall k :: 0 <= k < |props[1..]| ==> props[1..][k] == props[k + 1];
          if rest.Ok? then
            assert rest.value.columns[..|table.columns|] == rest.value.columns[..|table1.columns|][..|table.columns|];
            rest
          else rest
  }

  /** Loads the partition-array column files in order and routes each by name. */
  function LoadPartTables(dir: string, props: seq<PropStorageInfo>, parts: PartArrays, load: Loader)
    : (r: Result<PartArrays>)
    ensures r.Ok? ==> forall k :: 0 <= k < |props| ==> load(dir, props[k]).Ok?
    decreases |props|
  {
    if |props| == 0 then Ok(parts)
    else
      match load(dir, props[0])
      case Err(e) => Err(e)
      case Ok(t) =>
        match AddPartitionMetadataArray(parts, t)
        case Err(e) => Err(e)
        case Ok(parts1) =>
          var rest := LoadPartTables(dir, props[1..], parts1, load);
          assert forall k :: 0 <= k < |props[1..]| ==> props[1..][k] == props[k + 1];
          rest
  }

  /** Reading back files that hold what the store calls wrote routes them like
      the tables those calls describe. */
  lemma {:induction false} LoadPartTablesReadsBack(dir: string, props: seq<PropStorageInfo>, calls: seq<StoreCall>,
                                                   parts: PartArrays, load: Loader)
    requires |props| == |calls|
    requires forall k :: 0 <= k < |props| ==>
      load(dir, props[k]).Ok? && load(dir, props[k]).value == LoadedTable(calls[k])
    ensures LoadPartTables(dir, props, parts, load) == AddPartTables(parts, calls)
    decreases |props|
  {
    if |props| > 0 {
      assert forall k :: 0 <= k < |props[1..]| ==> props[1..][k] == props[k + 1] && calls[1..][k] == calls[k + 1];
      match AddPartitionMetadataArray(parts, LoadedTable(calls[0]))
      case Err(e) =>
      case Ok(parts1) => LoadPartTablesReadsBack(dir, props[1..], calls[1..], parts1, load);
    }
  }

  /** Partition arrays survive a write and a load: reading the files
      WritePartArrays recorded, in the order of its entries, restores every
      array to its slot. */
  lemma PartArraysSurviveStoreAndLoad(parts: PartArrays, wg: WriteGroup, store: StoreOracle, dir: string, load: Loader)
    requires WritePartArrays(parts, wg, store).Ok?
    requires var entries := WritePartArrays(parts, wg, store).value.0;
      forall k :: 0 <= k < |entries| ==>
        load(dir, entries[k]).Ok? && load(dir, entries[k]).value == LoadedTable(PartCalls(parts)[k])
    ensures LoadPartTables(dir, WritePartArrays(parts, wg, store).value.0, NoPartArrays, load) == Ok(parts)
  {
    LoadPartTablesReadsBack(dir, WritePartArrays(parts, wg, store).value.0, PartCalls(parts), NoPartArrays, load);
    PartArraysRoundTrip(parts);
  }

  /** Builds the partition a header describes: node columns, edge columns,
      then, when the header lists any, the partition arrays, then the
      topology mapping. A failure of the partition arrays is reported through
      the error accessor of the (successful) edge-load result, which holds no
      error: the caller receives an unspecified error code. */
  function DoMake(header: PartHeader, dir: string, io: MakeIo): (r: Result<RDG>)
    ensures r.Ok? ==> r.value.header == header && r.value.rdgDir == dir && r.value.lineage == []
    ensures r.Ok? ==> io.bind(JoinPath(dir, header.topologyPath)).Ok?
    ensures r.Ok? ==> LoadColumns(dir, header.nodeProps, EmptyTable, io.load) == Ok(r.value.nodeTable)
    ensures r.Ok? ==> LoadColumns(dir, header.edgeProps, EmptyTable, io.load) == Ok(r.value.edgeTable)
    ensures r.Ok? && |header.partProps| == 0 ==> r.value.parts == NoPartArrays
    ensures r.Ok? && |header.partProps| > 0 ==>
      LoadPartTables(dir, header.partProps, NoPartArrays, io.load) == Ok(r.value.parts)
    ensures LoadColumns(dir, header.nodeProps, EmptyTable, io.load).Err? ==>
      r == Err(LoadColumns(dir, header.nodeProps, EmptyTable, io.load).error)
    ensures
      && LoadColumns(dir, header.nodeProps, EmptyTable, io.load).Ok?
      && LoadColumns(dir, header.edgeProps, EmptyTable, io.load).Ok?
      && |header.partProps| > 0
      && LoadPartTables(dir, header.partProps, NoPartArrays, io.load).Err?
      ==> r == Err(Unspecified)
    ensures
      && LoadColumns(dir, header.nodeProps, EmptyTable, io.load).Ok?
      && LoadColumns(dir, header.edgeProps, EmptyTable, io.load).Err?
      ==> r == Err(LoadColumns(dir, header.edgeProps, EmptyTable, io.load).error)
    ensures
      && LoadColumns(dir, header.nodeProps, EmptyTable, io.load).Ok?
      && LoadColumns(dir, header.edgeProps, EmptyTable, io.load).Ok?
      && (|header.partProps| == 0 || LoadPartTables(dir, header.partProps, NoPartArrays, io.load).Ok?)
      && io.bind(JoinPath(dir, header.topologyPath)).Err?
      ==> r == Err(io.bind(JoinPath(dir, header.topologyPath)).error)
  {
    match LoadColumns(dir, header.nodeProps, EmptyTable, io.load)
    case Err(e) => Err(e)
    case Ok(nodes) =>
      match LoadColumns(dir, header.edgeProps, EmptyTable, io.load)
      case Err(e) => Err(e)
      case Ok(edges) =>
        var parts := if |header.partProps| == 0 then Ok(NoPartArrays)
                     else LoadPartTables(dir, header.partProps, NoPartArrays, io.load);
        if parts.Err? then Err(Unspecified)
        else
          match io.bind(JoinPath(dir, header.topologyPath))
          case Err(e) => Err(e)
          case Ok(_) => Ok(RDG(header, nodes, edges, parts.value, [], dir))
  }

  /** A partition loaded from single-column files keeps one column per
      storage-info entry. */
  lemma DoMakeWellFormed(header: PartHeader, dir: string, io: MakeIo)
    requires DoMake(header, dir, io).Ok?
    requires forall p :: p in header.nodeProps + header.edgeProps && io.load(dir, p).Ok? ==>
      |io.load(dir, p).value.columns| == 1
    ensures WellFormed(DoMake(header, dir, io).value)
  {
    assert forall k :: 0 <= k < |header.nodeProps| ==> header.nodeProps[k] in header.nodeProps + header.edgeProps;
    assert forall k :: 0 <= k < |header.edgeProps| ==> header.edgeProps[k] in header.nodeProps + header.edgeProps;
  }

  /** Loads host `comm.id`'s partition of the version `meta` describes: the
      host count must match unless the graph was never committed; then the
      header is read, pruned to the requested properties, and DoMake builds
      the partition. */
  function Make(meta: RDGMeta, comm: Comm, io: MakeIo): (r: Result<RDG>)
    ensures !IsEmptyRDG(meta) && meta.numHosts != comm.num ==> r == Err(InvalidArgument)
    ensures r.Ok? ==> IsEmptyRDG(meta) || meta.numHosts == comm.num
    ensures r.Ok? ==>
      var read := io.readHeader(PartitionFile(meta.dir, comm.id, meta.version));
      && read.Ok? && io.prune(read.value).Ok?
      && r == DoMake(io.prune(read.value).value, meta.dir, io)
    ensures r.Ok? ==> r.value.rdgDir == meta.dir && r.value.lineage == []
    ensures
      && (IsEmptyRDG(meta) || meta.numHosts == comm.num)
      && io.readHeader(PartitionFile(meta.dir, comm.id, meta.version)).Err?
      ==> r == Err(io.readHeader(PartitionFile(meta.dir, comm.id, meta.version)).error)
    ensures
      var read := io.readHeader(PartitionFile(meta.dir, comm.id, meta.version));
      && (IsEmptyRDG(meta) || meta.numHosts == comm.num)
      && read.Ok? && io.prune(read.value).Err?
      ==> r == Err(io.prune(read.value).error)
    ensures
      var read := io.readHeader(PartitionFile(meta.dir, comm.id, meta.version));
      && (IsEmptyRDG(meta) || meta.numHosts == comm.num)
      && read.Ok? && io.prune(read.value).Ok?
      ==> r == DoMake(io.prune(read.value).value, meta.dir, io)
  {
    if !IsEmptyRDG(meta) && meta.numHosts != comm.num then Err(InvalidArgument)
    else
      match io.readHeader(PartitionFile(meta.dir, comm.id, meta.version))
      case Err(e) => Err(e)
      case Ok(header) =>
        match io.prune(header)
        case Err(e) => Err(e)
        case Ok(pruned) => DoMake(pruned, meta.dir, io)
  }

  /** Loads through a handle, which must allow reading. */
  function MakeFromHandle(handle: Handle, comm: Comm, io: MakeIo): (r: Result<RDG>)
    ensures !handle.allowsRead ==> r == Err(InvalidArgument)
    ensures handle.allowsRead ==> r == Make(handle.meta, comm, io)
  {
    if !handle.allowsRead then Err(InvalidArgument) else Make(handle.meta, comm, io)
  }

  // ---------------------------------------------------------------------------
  // Adding attribute columns

  /** Adds node attribute columns and one unwritten storage-info entry per
      column. */
  function AddNodeProperties(rdg: RDG, added: Table): (r: Result<RDG>)
    ensures r.Ok? <==> |rdg.nodeTable.columns| == 0 || rdg.nodeTable.numRows == added.numRows
    ensures r.Err? ==> r.error == InvalidArgument
    ensures r.Ok? ==> r.value == rdg.(nodeTable := r.value.nodeTable, header := r.value.header)
    ensures r.Ok? ==> r.value.header == rdg.header.(nodeProps := rdg.header.nodeProps + NewInfos(added))
    ensures r.Ok? ==> r.value.nodeTable.columns == rdg.nodeTable.columns + added.columns
    ensures r.Ok? && WellFormed(rdg) ==> WellFormed(r.value)
  {
    match AddProperties(rdg.nodeTable, rdg.header.nodeProps, added)
    case Err(e) => Err(e)
    case Ok((table, props)) =>
      assert props == rdg.header.nodeProps + NewInfos(added);
      Ok(rdg.(nodeTable := table, header := rdg.header.(nodeProps := props)))
  }

  /** Adds edge attribute columns and one unwritten storage-info entry per
      column. */
  function AddEdgeProperties(rdg: RDG, added: Table): (r: Result<RDG>)
    ensures r.Ok? <==> |rdg.edgeTable.columns| == 0 || rdg.edgeTable.numRows == added.numRows
    ensures r.Err? ==> r.error == InvalidArgument
    ensures r.Ok? ==> r.value == rdg.(edgeTable := r.value.edgeTable, header := r.value.header)
    ensures r.Ok? ==> r.value.header == rdg.header.(edgeProps := rdg.header.edgeProps + NewInfos(added))
    ensures r.Ok? ==> r.value.edgeTable.columns == rdg.edgeTable.columns + added.columns
    ensures r.Ok? && WellFormed(rdg) ==> WellFormed(r.value)
  {
    match AddProperties(rdg.edgeTable, rdg.header.edgeProps, added)
    case Err(e) => Err(e)
    case Ok((table, props)) =>
      assert props == rdg.header.edgeProps + NewInfos(added);
      Ok(rdg.(edgeTable := table, header := rdg.header.(edgeProps := props)))
  }
}

=== FILE: subgraph_iso.dfy ===
/** Sequential logic of the subgraph-isomorphism application
    (exp/apps/subgraphisomorphism/SubgraphIsomorphism.cpp): candidate
    filtering, candidate refinement for Ullmann and VF2, the join test, the
    Ullmann backtracking search with a found-counter, and the checker of a
    reported matching. Nodes are the indices `0 .. |labels|`, and a graph keeps
    both its out-neighbour and its in-neighbour lists. */
module SubgraphIso {

  datatype Graph = Graph(labels: seq<char>, out: seq<seq<nat>>, ins: seq<seq<nat>>)

  function NumNodes(g: Graph): nat {
    |g.labels|
  }

  function Label(g: Graph, n: nat): char
    requires n < NumNodes(g)
  {
    g.labels[n]
  }

  /** Both adjacency lists cover every node, name only nodes of the graph,
      and describe the same edges. */
  predicate ValidGraph(g: Graph) {
    && |g.out| == |g.labels| && |g.ins| == |g.labels|
    && (forall a, k :: 0 <= a < |g.out| && 0 <= k < |g.out[a]| ==> g.out[a][k] < |g.labels|)
    && (forall a, k :: 0 <= a < |g.ins| && 0 <= k < |g.ins[a]| ==> g.ins[a][k] < |g.labels|)
    && (forall a, b :: 0 <= a < |g.out| && 0 <= b < |g.ins| ==> (b in g.out[a] <==> a in g.ins[b]))
  }

  /** The out-neighbours of `n`, one entry per edge (none for a non-node). */
  function Out(g: Graph, n: nat): seq<nat> {
    if n < |g.out| then g.out[n] else []
  }

  function In(g: Graph, n: nat): seq<nat> {
    if n < |g.ins| then g.ins[n] else []
  }

  function OutDegree(g: Graph, n: nat): nat {
    |Out(g, n)|
  }

  function InDegree(g: Graph, n: nat): nat {
    |In(g, n)|
  }

  /** `findEdge(a, b) != edge_end(a)`. */
  predicate HasEdge(g: Graph, a: nat, b: nat) {
    b in Out(g, a)
  }

  /** Every edge has its reverse, as in an undirected graph. */
  ghost predicate Symmetric(g: Graph) {
    forall a, b :: HasEdge(g, a, b) ==> HasEdge(g, b, a)
  }

  datatype NodeMatch = NodeMatch(nQ: nat, nD: nat)

  // ---------------------------------------------------------------------------
  // Candidate filtering

  /** Data node `d` may stand for query node `q`: same label, and a self-loop
      at `q` needs one at `d`. */
  predicate Accepts(gD: Graph, gQ: Graph, q: nat, d: nat)
    requires ValidGraph(gD) && ValidGraph(gQ) && q < NumNodes(gQ) && d < NumNodes(gD)
  {
    Label(gQ, q) == Label(gD, d) && (HasEdge(gQ, q, q) ==> HasEdge(gD, d, d))
  }

  predicate StrictlySorted(s: seq<nat>) {
    forall i, j :: 0 <= i < j < |s| ==> s[i] < s[j]
  }

  /** The candidate list of `q`: exactly the accepted data nodes, in ascending
      order. The scan visits data nodes in ascending order, so the list is
      already sorted and VF2's extra sort leaves it unchanged. */
  method FilterCandidatesOf(gD: Graph, gQ: Graph, q: nat) returns (c: seq<nat>)
    requires ValidGraph(gD) && ValidGraph(gQ) && q < NumNodes(gQ)
    ensures StrictlySorted(c)
    ensures forall d: nat :: d in c <==> d < NumNodes(gD) && Accepts(gD, gQ, q, d)
  {
    c := [];
    var d := 0;
    while d < NumNodes(gD)
      invariant d <= NumNodes(gD)
      invariant StrictlySorted(c) && forall k :: 0 <= k < |c| ==> c[k] < d
      invariant forall x: nat :: x in c <==> x < d && Accepts(gD, gQ, q, x)
    {
      if Label(gQ, q) != Label(gD, d) {
        d := d + 1;
        continue;
      }
      if HasEdge(gQ, q, q) && !HasEdge(gD, d, d) {
        d := d + 1;
        continue;
      }
      c := c + [d];
      d := d + 1;
    }
  }

  /** Every candidate names a data node that `Accepts` its query node. */
  ghost predicate CandidatesOk(gD: Graph, gQ: Graph, cands: seq<seq<nat>>)
    requires ValidGraph(gD) && ValidGraph(gQ)
  {
    && |cands| == NumNodes(gQ)
    && forall q, k :: 0 <= q < |cands| && 0 <= k < |cands[q]| ==>
         cands[q][k] < NumNodes(gD) && Accepts(gD, gQ, q, cands[q][k])
  }

  /** Builds every query node's candidate list and reports whether some list
      came out empty. */
  method FilterCandidates(gD: Graph, gQ: Graph) returns (cands: seq<seq<nat>>, someEmpty: bool)
    requires ValidGraph(gD) && ValidGraph(gQ)
    ensures CandidatesOk(gD, gQ, cands)
    ensures forall q :: 0 <= q < |cands| ==> StrictlySorted(cands[q])
    ensures forall q, d: nat :: 0 <= q < |cands| && d < NumNodes(gD) && Accepts(gD, gQ, q, d) ==> d in cands[q]
    ensures someEmpty <==> exists q :: 0 <= q < |cands| && |cands[q]| == 0
  {
    cands := [];
    someEmpty := false;
    var q := 0;
    while q < NumNodes(gQ)
      invariant q <= NumNodes(gQ) && |cands| == q
      invariant forall p, k :: 0 <= p < q && 0 <= k < |cands[p]| ==> cands[p][k] < NumNodes(gD) && Accepts(gD, gQ, p, cands[p][k])
      invariant forall p :: 0 <= p < q ==> StrictlySorted(cands[p])
      invariant forall p, d: nat :: 0 <= p < q && d < NumNodes(gD) && Accepts(gD, gQ, p, d) ==> d in cands[p]
      invariant someEmpty <==> exists p :: 0 <= p < q && |cands[p]| == 0
    {
      var c := FilterCandidatesOf(gD, gQ, q);
      forall k | 0 <= k < |c|
        ensures c[k] < NumNodes(gD) && Accepts(gD, gQ, q, c[k])
      {
        assert c[k] in c;
      }
      ghost var before := cands;
      cands := cands + [c];
      assert cands[q] == c && forall p :: 0 <= p < q ==> cands[p] == before[p];
      if |c| == 0 {
        assert |cands[q]| == 0;
      }
      someEmpty := someEmpty || |c| == 0;
      q := q + 1;
    }
  }

  // ---------------------------------------------------------------------------
  // Keeping the elements that pass a test

  /** The elements of `s` that pass `keep`, in their original order. */
  function Kept(s: seq<nat>, keep: nat -> bool): (r: seq<nat>)
    ensures |r| <= |s|
    decreases |s|
  {
    if |s| == 0 then []
    else Kept(s[..|s| - 1], keep) + (if keep(s[|s| - 1]) then [s[|s| - 1]] else [])
  }

  /** Filtering one more element of a prefix appends it when it is kept. */
  lemma KeptStep(s: seq<nat>, keep: nat -> bool, i: nat)
    requires i < |s|
    ensures Kept(s[..i + 1], keep) == Kept(s[..i], keep) + (if keep(s[i]) then [s[i]] else [])
  {
    assert s[..i + 1][..i] == s[..i];
  }

  lemma {:induction false} KeptMembers(s: seq<nat>, keep: nat -> bool)
    ensures forall x :: x in Kept(s, keep) <==> x in s && keep(x)
    decreases |s|
  {
    if |s| > 0 {
      var init := s[..|s| - 1];
      KeptMembers(init, keep);
      assert s == init + [s[|s| - 1]];
    }
  }

  /** Filtering keeps a strictly ascending list strictly ascending. */
  lemma {:induction false} KeptSorted(s: seq<nat>, keep: nat -> bool)
    requires StrictlySorted(s)
    ensures StrictlySorted(Kept(s, keep))
    decreases |s|
  {
    if |s| > 0 {
      var init := s[..|s| - 1];
      KeptSorted(init, keep);
      KeptMembers(init, keep);
      var r := Kept(init, keep);
      forall k | 0 <= k < |r|
        ensures r[k] < s[|s| - 1]
      {
        assert r[k] in init;
      }
    }
  }

  method KeepWhere(s: seq<nat>, keep: nat -> bool) returns (r: seq<nat>)
    ensures r == Kept(s, keep)
    ensures forall x :: x in r <==> x in s && keep(x)
    ensures StrictlySorted(s) ==> StrictlySorted(r)
  {
    r := [];
    var i := 0;
    while i < |s|
      invariant i <= |s| && r == Kept(s[..i], keep)
    {
      assert s[..i + 1][..i] == s[..i];
      if keep(s[i]) {
        r := r + [s[i]];
      }
      i := i + 1;
    }
    assert s[..|s|] == s;
    KeptMembers(s, keep);
    if StrictlySorted(s) {
      KeptSorted(s, keep);
    }
  }

  // ---------------------------------------------------------------------------
  // Refinement

  /** Ullmann keeps a candidate whose out- and in-degree both reach the query
      node's. */
  predicate UllmannKeeps(gD: Graph, gQ: Graph, nQ: nat, d: nat) {
    OutDegree(gD, d) >= OutDegree(gQ, nQ) && InDegree(gD, d) >= InDegree(gQ, nQ)
  }

  function UllmannTest(gD: Graph, gQ: Graph, nQ: nat): nat -> bool {
    (d: nat) => UllmannKeeps(gD, gQ, nQ, d)
  }

  method UllmannRefine(gD: Graph, gQ: Graph, nQ: nat, cands: seq<nat>) returns (refined: seq<nat>)
    ensures forall d :: d in refined <==> d in cands && OutDegree(gD, d) >= OutDegree(gQ, nQ) && InDegree(gD, d) >= InDegree(gQ, nQ)
    ensures refined == Kept(cands, UllmannTest(gD, gQ, nQ))
    ensures StrictlySorted(cands) ==> StrictlySorted(refined)
  {
    refined := KeepWhere(cands, UllmannTest(gD, gQ, nQ));
  }

  /** The number of entries of `s` in `frontier`. */
  function CountIn(s: seq<nat>, frontier: set<nat>): (n: nat)
    ensures n <= |s|
    decreases |s|
  {
    if |s| == 0 then 0 else CountIn(s[..|s| - 1], frontier) + (if s[|s| - 1] in frontier then 1 else 0)
  }

  /** The number of entries of `s` neither in `frontier` nor in `matched`. */
  function CountOther(s: seq<nat>, frontier: set<nat>, matched: set<nat>): (n: nat)
    ensures n <= |s|
    decreases |s|
  {
    if |s| == 0 then 0
    else CountOther(s[..|s| - 1], frontier, matched) + (if s[|s| - 1] !in frontier && s[|s| - 1] !in matched then 1 else 0)
  }

  /** An entry is counted at most once, so together the two counts never
      exceed the list. */
  lemma {:induction false} CountsBounded(s: seq<nat>, frontier: set<nat>, matched: set<nat>)
    ensures CountIn(s, frontier) + CountOther(s, frontier, matched) <= |s|
    decreases |s|
  {
    if |s| > 0 {
      CountsBounded(s[..|s| - 1], frontier, matched);
    }
  }

  /** Walks the neighbour list once, counting entries in the frontier and
      entries elsewhere that are not matched yet. */
  method CountNeighbors(s: seq<nat>, matched: set<nat>, frontier: set<nat>) returns (numFrontier: nat, numOther: nat)
    ensures numFrontier == CountIn(s, frontier)
    ensures numOther == CountOther(s, frontier, matched)
  {
    numFrontier, numOther := 0, 0;
    var i := 0;
    while i < |s|
      invariant i <= |s|
      invariant numFrontier == CountIn(s[..i], frontier)
      invariant numOther == CountOther(s[..i], frontier, matched)
    {
      assert s[..i + 1][..i] == s[..i];
      if s[i] in frontier {
        numFrontier := numFrontier + 1;
      } else {
        numOther := numOther + (if s[i] in matched then 0 else 1);
      }
      i := i + 1;
    }
    assert s[..|s|] == s;
  }

  /** The search state VF2 keeps per thread: the matched nodes of each graph,
      the query frontier, and the data frontier in the order it is visited. */
  datatype Vf2State = Vf2State(qMatched: set<nat>, qFrontier: set<nat>, dMatched: set<nat>, dFrontier: seq<nat>)

  function DataFrontier(st: Vf2State): set<nat> {
    set x | x in st.dFrontier
  }

  /** A data node's neighbour list `sD` has at least as many frontier
      entries, and at least as many other unmatched entries, as the query
      node's list `sQ`. */
  predicate FrontierFits(sD: seq<nat>, sQ: seq<nat>, st: Vf2State) {
    && CountIn(sD, DataFrontier(st)) >= CountIn(sQ, st.qFrontier)
    && CountOther(sD, DataFrontier(st), st.dMatched) >= CountOther(sQ, st.qFrontier, st.qMatched)
  }

  /** VF2 keeps a frontier node that is a candidate, whose out-degree reaches
      the query node's, whose out-neighbours in the frontier and elsewhere
      unmatched are as many as the query node's, and, for directed graphs,
      the same for in-neighbours. */
  predicate Vf2Keeps(gD: Graph, gQ: Graph, nQ: nat, cands: seq<nat>, st: Vf2State, undirected: bool, d: nat) {
    && d in cands
    && OutDegree(gD, d) >= OutDegree(gQ, nQ)
    && FrontierFits(Out(gD, d), Out(gQ, nQ), st)
    && (!undirected ==> InDegree(gD, d) >= InDegree(gQ, nQ) && FrontierFits(In(gD, d), In(gQ, nQ), st))
  }

  function Vf2Test(gD: Graph, gQ: Graph, nQ: nat, cands: seq<nat>, st: Vf2State, undirected: bool): nat -> bool {
    (d: nat) => Vf2Keeps(gD, gQ, nQ, cands, st, undirected, d)
  }

  /** The query node's side of VF2's test, counted once per refinement. */
  datatype QueryCounts = QueryCounts(frontierOut: nat, otherOut: nat, inDegree: nat, frontierIn: nat, otherIn: nat)

  predicate CountsOf(gQ: Graph, nQ: nat, st: Vf2State, undirected: bool, qc: QueryCounts) {
    && qc.frontierOut == CountIn(Out(gQ, nQ), st.qFrontier)
    && qc.otherOut == CountOther(Out(gQ, nQ), st.qFrontier, st.qMatched)
    && (!undirected ==>
          && qc.inDegree == InDegree(gQ, nQ)
          && qc.frontierIn == CountIn(In(gQ, nQ), st.qFrontier)
          && qc.otherIn == CountOther(In(gQ, nQ), st.qFrontier, st.qMatched))
  }

  /** The counts of the query node's out-neighbours, and for directed graphs
      its in-degree and in-neighbour counts. */
  method QueryNodeCounts(gQ: Graph, nQ: nat, st: Vf2State, undirected: bool) returns (qc: QueryCounts)
    ensures CountsOf(gQ, nQ, st, undirected, qc)
  {
    var fo, oo := CountNeighbors(Out(gQ, nQ), st.qMatched, st.qFrontier);
    qc := QueryCounts(fo, oo, 0, 0, 0);
    if !undirected {
      var fi, oi := CountNeighbors(In(gQ, nQ), st.qMatched, st.qFrontier);
      qc := QueryCounts(fo, oo, InDegree(gQ, nQ), fi, oi);
    }
  }

  /** VF2's test of one frontier node `d`, rejecting at the first check that
      fails; the binary search over the sorted candidate list is a
      membership test. */
  method Vf2Check(gD: Graph, gQ: Graph, nQ: nat, cands: seq<nat>, st: Vf2State, undirected: bool, qc: QueryCounts, d: nat)
    returns (keep: bool)
    requires CountsOf(gQ, nQ, st, undirected, qc)
    ensures keep <==> Vf2Keeps(gD, gQ, nQ, cands, st, undirected, d)
  {
    if d !in cands || OutDegree(gD, d) < OutDegree(gQ, nQ) {
      return false;
    }
    var dF := DataFrontier(st);
    var numFrontierD, numOtherD := CountNeighbors(Out(gD, d), st.dMatched, dF);
    if numFrontierD < qc.frontierOut || numOtherD < qc.otherOut {
      return false;
    }
    if undirected {
      return true;
    }
    if InDegree(gD, d) < qc.inDegree {
      return false;
    }
    var numFrontierInD, numOtherInD := CountNeighbors(In(gD, d), st.dMatched, dF);
    keep := numFrontierInD >= qc.frontierIn && numOtherInD >= qc.otherIn;
  }

  /** VF2's refinement walks the data frontier, not the candidate list, and
      keeps the nodes that pass Vf2Check, in frontier order. */
  method Vf2Refine(gD: Graph, gQ: Graph, nQ: nat, cands: seq<nat>, st: Vf2State, undirected: bool)
    returns (refined: seq<nat>)
    ensures refined == Kept(st.dFrontier, Vf2Test(gD, gQ, nQ, cands, st, undirected))
    ensures forall d :: d in refined <==> d in st.dFrontier && Vf2Keeps(gD, gQ, nQ, cands, st, undirected, d)
  {
    refined := [];
    var qc := QueryNodeCounts(gQ, nQ, st, undirected);
    ghost var keep := Vf2Test(gD, gQ, nQ, cands, st, undirected);
    var i := 0;
    while i < |st.dFrontier|
      invariant i <= |st.dFrontier| && refined == Kept(st.dFrontier[..i], keep)
    {
      var d := st.dFrontier[i];
      KeptStep(st.dFrontier, keep, i);
      var ok := Vf2Check(gD, gQ, nQ, cands, st, undirected, qc, d);
      assert keep(d) == ok;
      if ok {
        refined := refined + [d];
      }
      i := i + 1;
    }
    assert st.dFrontier[..|st.dFrontier|] == st.dFrontier;
    KeptMembers(st.dFrontier, keep);
  }

  // ---------------------------------------------------------------------------
  // Joining

  /** Pair `b`, added after `a`, is consistent with it: a different data
      node, the query edge from `b` to `a` present in the data graph, and, for
      directed graphs, the edge from `a` to `b` as well. */
  predicate Joined(gD: Graph, gQ: Graph, a: NodeMatch, b: NodeMatch, undirected: bool) {
    && b.nD != a.nD
    && (HasEdge(gQ, b.nQ, a.nQ) ==> HasEdge(gD, b.nD, a.nD))
    && (!undirected ==> (HasEdge(gQ, a.nQ, b.nQ) ==> HasEdge(gD, a.nD, b.nD)))
  }

  /** May `(nQ, nD)` extend `matching`? Rejects at the first pair it clashes
      with. */
  method IsJoinable(gD: Graph, gQ: Graph, nD: nat, nQ: nat, matching: seq<NodeMatch>, undirected: bool)
    returns (ok: bool)
    ensures ok <==> forall i :: 0 <= i < |matching| ==> Joined(gD, gQ, matching[i], NodeMatch(nQ, nD), undirected)
    ensures ok ==> forall i :: 0 <= i < |matching| ==> matching[i].nD != nD
  {
    var i := 0;
    while i < |matching|
      invariant i <= |matching|
      invariant forall k :: 0 <= k < i ==> Joined(gD, gQ, matching[k], NodeMatch(nQ, nD), undirected)
    {
      var m := matching[i];
      if nD == m.nD {
        return false;
      }
      if HasEdge(gQ, nQ, m.nQ) && !HasEdge(gD, nD, m.nD) {
        return false;
      }
      if !undirected {
        if HasEdge(gQ, m.nQ, nQ) && !HasEdge(gD, m.nD, nD) {
          return false;
        }
      }
      i := i + 1;
    }
    return true;
  }

  // ---------------------------------------------------------------------------
  // Ullmann search

  /** The i-th pair matches the i-th query node: Ullmann extends a matching
      at the query node whose position is the matching's size. */
  predicate QueryOrdered(m: seq<NodeMatch>) {
    forall i :: 0 <= i < |m| ==> m[i].nQ == i
  }

  /** Every pair is accepted, and every later pair is joined to every earlier
      one. */
  ghost predicate PartialIso(gD: Graph, gQ: Graph, m: seq<NodeMatch>, undirected: bool)
    requires ValidGraph(gD) && ValidGraph(gQ)
  {
    && (forall i :: 0 <= i < |m| ==> m[i].nQ < NumNodes(gQ) && m[i].nD < NumNodes(gD) && Accepts(gD, gQ, m[i].nQ, m[i].nD))
    && (forall i, j :: 0 <= i < j < |m| ==> Joined(gD, gQ, m[i], m[j], undirected))
  }

  function NextQueryNode(gQ: Graph, matching: seq<NodeMatch>): (n: nat)
    requires |matching| < NumNodes(gQ)
    ensures n < NumNodes(gQ)
  {
    |matching|
  }

  lemma ExtendPartialIso(gD: Graph, gQ: Graph, cands: seq<seq<nat>>, m: seq<NodeMatch>, d: nat, undirected: bool)
    requires ValidGraph(gD) && ValidGraph(gQ) && CandidatesOk(gD, gQ, cands)
    requires |m| < NumNodes(gQ) && QueryOrdered(m) && PartialIso(gD, gQ, m, undirected)
    requires d in cands[|m|]
    requires forall i :: 0 <= i < |m| ==> Joined(gD, gQ, m[i], NodeMatch(|m|, d), undirected)
    ensures QueryOrdered(m + [NodeMatch(|m|, d)]) && PartialIso(gD, gQ, m + [NodeMatch(|m|, d)], undirected)
  {
    var m' := m + [NodeMatch(|m|, d)];
    var k :| 0 <= k < |cands[|m|]| && cands[|m|][k] == d;
    assert forall i, j :: 0 <= i < j < |m'| ==> Joined(gD, gQ, m'[i], m'[j], undirected) by {
      forall i, j | 0 <= i < j < |m'|
        ensures Joined(gD, gQ, m'[i], m'[j], undirected)
      {
        if j < |m| {
          assert m'[i] == m[i] && m'[j] == m[j];
        }
      }
    }
  }

  /** `m` is one of the matchings a search from `matching` can reach: a
      complete, ordered, consistent extension of `matching` whose later pairs
      each use a candidate that passes Ullmann's refinement. */
  ghost predicate Extension(gD: Graph, gQ: Graph, cands: seq<seq<nat>>, undirected: bool,
                            matching: seq<NodeMatch>, m: seq<NodeMatch>)
    requires ValidGraph(gD) && ValidGraph(gQ) && |cands| == NumNodes(gQ)
  {
    && |m| == NumNodes(gQ) && |matching| <= |m| && m[..|matching|] == matching
    && QueryOrdered(m) && PartialIso(gD, gQ, m, undirected)
    && forall i :: |matching| <= i < |m| ==> m[i].nD in cands[i] && UllmannKeeps(gD, gQ, i, m[i].nD)
  }

  /** The pair an extension adds next: the next query node, with a refined
      candidate joined to every earlier pair. */
  lemma ExtensionNext(gD: Graph, gQ: Graph, cands: seq<seq<nat>>, undirected: bool,
                      matching: seq<NodeMatch>, m: seq<NodeMatch>)
    requires ValidGraph(gD) && ValidGraph(gQ) && |cands| == NumNodes(gQ)
    requires Extension(gD, gQ, cands, undirected, matching, m) && |matching| < NumNodes(gQ)
    ensures m[|matching|] == NodeMatch(|matching|, m[|matching|].nD)
    ensures m[|matching|].nD in cands[|matching|] && UllmannKeeps(gD, gQ, |matching|, m[|matching|].nD)
    ensures forall k :: 0 <= k < |matching| ==> Joined(gD, gQ, matching[k], m[|matching|], undirected)
    ensures Extension(gD, gQ, cands, undirected, matching + [m[|matching|]], m)
  {
    var n := |matching|;
    forall k | 0 <= k < n
      ensures Joined(gD, gQ, matching[k], m[n], undirected)
    {
      assert matching[k] == m[..n][k] == m[k];
    }
    assert m[..n + 1] == m[..n] + [m[n]];
  }

  /** What a search call reports: the matchings it adds are counted, and
      each is an extension of the matching it began from. */
  ghost predicate ReportsFrom(gD: Graph, gQ: Graph, cands: seq<seq<nat>>, matching: seq<NodeMatch>, undirected: bool,
                              found: nat, report: seq<seq<NodeMatch>>, found': nat, report': seq<seq<NodeMatch>>)
    requires ValidGraph(gD) && ValidGraph(gQ) && |cands| == NumNodes(gQ)
  {
    && found <= found'
    && |report'| == |report| + (found' - found)
    && report'[..|report|] == report
    && forall k :: |report| <= k < |report'| ==> Extension(gD, gQ, cands, undirected, matching, report'[k])
  }

  lemma ReportsFromTrans(gD: Graph, gQ: Graph, cands: seq<seq<nat>>, matching: seq<NodeMatch>, ext: seq<NodeMatch>,
                         undirected: bool,
                         f0: nat, r0: seq<seq<NodeMatch>>, f1: nat, r1: seq<seq<NodeMatch>>, f2: nat, r2: seq<seq<NodeMatch>>)
    requires ValidGraph(gD) && ValidGraph(gQ) && |cands| == NumNodes(gQ)
    requires |matching| <= |ext| <= NumNodes(gQ) && ext[..|matching|] == matching
    requires forall i :: |matching| <= i < |ext| ==> ext[i].nD in cands[i] && UllmannKeeps(gD, gQ, i, ext[i].nD)
    requires ReportsFrom(gD, gQ, cands, matching, undirected, f0, r0, f1, r1)
    requires ReportsFrom(gD, gQ, cands, ext, undirected, f1, r1, f2, r2)
    ensures ReportsFrom(gD, gQ, cands, matching, undirected, f0, r0, f2, r2)
  {
    assert r2[..|r0|] == r1[..|r1|][..|r0|];
    forall k | |r1| <= k < |r2|
      ensures Extension(gD, gQ, cands, undirected, matching, r2[k])
    {
      assert r2[k][..|matching|] == r2[k][..|ext|][..|matching|];
      forall i | |matching| <= i < |ext|
        ensures r2[k][i] == ext[i]
      {
        assert r2[k][i] == r2[k][..|ext|][i];
      }
    }
    forall k | |r0| <= k < |r1|
      ensures r2[k] == r1[k]
    {
      assert r2[k] == r2[..|r1|][k];
    }
  }

  /** Ullmann's depth-first search from `matching`. It stops as soon as
      `found` reaches `kFound`; a complete matching is reported and counted.
      If the search ends below `kFound` the matching is back to its entry
      value (every pushed pair was popped) and every extension of it was
      reported; if it stopped at `kFound` the matching may still hold the
      pairs pushed on the way. */
  method DoSearch(gD: Graph, gQ: Graph, cands: seq<seq<nat>>, kFound: nat, undirected: bool,
                  matching: seq<NodeMatch>, found: nat, report: seq<seq<NodeMatch>>)
    returns (matching': seq<NodeMatch>, found': nat, report': seq<seq<NodeMatch>>)
    requires ValidGraph(gD) && ValidGraph(gQ) && CandidatesOk(gD, gQ, cands)
    requires |matching| <= NumNodes(gQ) && QueryOrdered(matching) && PartialIso(gD, gQ, matching, undirected)
    ensures found >= kFound ==> matching' == matching && found' == found && report' == report
    ensures found < kFound && |matching| == NumNodes(gQ) ==> found' == found + 1 && report' == report + [matching]
    ensures found <= kFound ==> found' <= kFound
    ensures found' < kFound ==> matching' == matching
    ensures |matching| <= |matching'| && matching'[..|matching|] == matching
    ensures ReportsFrom(gD, gQ, cands, matching, undirected, found, report, found', report')
    ensures found' < kFound ==>
      forall m :: Extension(gD, gQ, cands, undirected, matching, m) ==> m in report'[|report|..]
    decreases NumNodes(gQ) - |matching|, 2
  {
    if found >= kFound {
      return matching, found, report;
    }
    if |matching| == NumNodes(gQ) {
      assert matching[..|matching|] == matching;
      forall m: seq<NodeMatch> | Extension(gD, gQ, cands, undirected, matching, m)
        ensures m == matching
      {
        assert m == m[..|matching|];
      }
      return matching, found + 1, report + [matching];
    }
    var nQ := NextQueryNode(gQ, matching);
    var refined := UllmannRefine(gD, gQ, nQ, cands[nQ]);
    matching', found', report' := SearchCandidates(gD, gQ, cands, kFound, undirected, matching, refined, found, report);
    if found' < kFound {
      forall m: seq<NodeMatch> | Extension(gD, gQ, cands, undirected, matching, m)
        ensures m[nQ].nD in refined
      {
        ExtensionNext(gD, gQ, cands, undirected, matching, m);
      }
    }
  }

  /** The search loop over the refined candidates of the next query node,
      left early once `kFound` matchings are counted. Below `kFound`, every
      extension whose next pair uses one of `refined` was reported. */
  method SearchCandidates(gD: Graph, gQ: Graph, cands: seq<seq<nat>>, kFound: nat, undirected: bool,
                          matching: seq<NodeMatch>, refined: seq<nat>, found: nat, report: seq<seq<NodeMatch>>)
    returns (matching': seq<NodeMatch>, found': nat, report': seq<seq<NodeMatch>>)
    requires ValidGraph(gD) && ValidGraph(gQ) && CandidatesOk(gD, gQ, cands)
    requires |matching| < NumNodes(gQ) && QueryOrdered(matching) && PartialIso(gD, gQ, matching, undirected)
    requires forall d :: d in refined ==> d in cands[|matching|] && UllmannKeeps(gD, gQ, |matching|, d)
    requires found < kFound
    ensures found' <= kFound
    ensures found' < kFound ==> matching' == matching
    ensures |matching| <= |matching'| && matching'[..|matching|] == matching
    ensures ReportsFrom(gD, gQ, cands, matching, undirected, found, report, found', report')
    ensures found' < kFound ==>
      forall m: seq<NodeMatch> :: Extension(gD, gQ, cands, undirected, matching, m) && m[|matching|].nD in refined ==>
        m in report'[|report|..]
    decreases NumNodes(gQ) - |matching|, 1
  {
    var nQ := |matching|;
    matching', found', report' := matching, found, report;
    var i := 0;
    while i < |refined|
      invariant i <= |refined|
      invariant found' < kFound && matching' == matching
      invariant ReportsFrom(gD, gQ, cands, matching, undirected, found, report, found', report')
      invariant forall m: seq<NodeMatch> :: Extension(gD, gQ, cands, undirected, matching, m) && m[nQ].nD in refined[..i] ==>
        m in report'[|report|..]
    {
      var d := refined[i];
      assert refined[..i + 1] == refined[..i] + [d];
      assert d in refined;
      var f1, r1 := found', report';
      matching', found', report' := SearchCandidate(gD, gQ, cands, kFound, undirected, matching, d, found', report');
      ReportsFromTrans(gD, gQ, cands, matching, matching, undirected, found, report, f1, r1, found', report');
      if found' >= kFound {
        return;
      }
      assert report'[|report|..] == r1[|report|..] + report'[|r1|..];
      i := i + 1;
    }
    assert refined[..|refined|] == refined;
  }

  /** One step of the search loop: pair the next query node with candidate
      `d` if it joins every pair so far, search on from there, and pop the
      pair again. Below `kFound`, every extension that uses `d` next was
      reported. */
  method SearchCandidate(gD: Graph, gQ: Graph, cands: seq<seq<nat>>, kFound: nat, undirected: bool,
                         matching: seq<NodeMatch>, d: nat, found: nat, report: seq<seq<NodeMatch>>)
    returns (matching': seq<NodeMatch>, found': nat, report': seq<seq<NodeMatch>>)
    requires ValidGraph(gD) && ValidGraph(gQ) && CandidatesOk(gD, gQ, cands)
    requires |matching| < NumNodes(gQ) && QueryOrdered(matching) && PartialIso(gD, gQ, matching, undirected)
    requires d in cands[|matching|] && UllmannKeeps(gD, gQ, |matching|, d) && found < kFound
    ensures found' <= kFound
    ensures found' < kFound ==> matching' == matching
    ensures |matching| <= |matching'| && matching'[..|matching|] == matching
    ensures ReportsFrom(gD, gQ, cands, matching, undirected, found, report, found', report')
    ensures found' < kFound ==>
      forall m: seq<NodeMatch> :: Extension(gD, gQ, cands, undirected, matching, m) && m[|matching|].nD == d ==>
        m in report'[|report|..]
    decreases NumNodes(gQ) - |matching|, 0
  {
    var nQ := |matching|;
    var ok := IsJoinable(gD, gQ, d, nQ, matching, undirected);
    if !ok {
      forall m: seq<NodeMatch> | Extension(gD, gQ, cands, undirected, matching, m)
        ensures m[nQ].nD != d
      {
        ExtensionNext(gD, gQ, cands, undirected, matching, m);
      }
      return matching, found, report;
    }
    ExtendPartialIso(gD, gQ, cands, matching, d, undirected);
    var ext := matching + [NodeMatch(nQ, d)];
    matching', found', report' := DoSearch(gD, gQ, cands, kFound, undirected, ext, found, report);
    ReportsFromTrans(gD, gQ, cands, matching, ext, undirected, found, report, found, report, found', report');
    assert matching'[..|matching|] == matching'[..|ext|][..|matching|];
    if found' < kFound {
      forall m: seq<NodeMatch> | Extension(gD, gQ, cands, undirected, matching, m) && m[nQ].nD == d
        ensures Extension(gD, gQ, cands, undirected, ext, m)
      {
        ExtensionNext(gD, gQ, cands, undirected, matching, m);
      }
      matching' := matching'[..|matching'| - 1];
    }
  }

  /** The matchings the whole search can reach: the first query node takes
      any of its candidates (the seeds are not refined), and the rest extend
      that seed. */
  ghost predicate Searched(gD: Graph, gQ: Graph, cands: seq<seq<nat>>, undirected: bool, m: seq<NodeMatch>)
    requires ValidGraph(gD) && ValidGraph(gQ) && |cands| == NumNodes(gQ) > 0
  {
    |m| > 0 && m[0].nD in cands[0] && Extension(gD, gQ, cands, undirected, [m[0]], m)
  }

  /** Seeds one search per candidate of the first query node, pairing it with
      that candidate, and stops once `kFound` matchings are counted. Below
      `kFound`, every reachable matching was reported. */
  method SubgraphSearch(gD: Graph, gQ: Graph, cands: seq<seq<nat>>, kFound: nat, undirected: bool)
    returns (found: nat, report: seq<seq<NodeMatch>>)
    requires ValidGraph(gD) && ValidGraph(gQ) && CandidatesOk(gD, gQ, cands) && NumNodes(gQ) > 0
    ensures found <= kFound && |report| == found
    ensures forall k :: 0 <= k < |report| ==>
      |report[k]| == NumNodes(gQ) && QueryOrdered(report[k]) && PartialIso(gD, gQ, report[k], undirected)
    ensures forall k :: 0 <= k < |report| ==> Searched(gD, gQ, cands, undirected, report[k])
    ensures found < kFound ==> forall m :: Searched(gD, gQ, cands, undirected, m) ==> m in report
  {
    found, report := 0, [];
    var i := 0;
    while i < |cands[0]| && found < kFound
      invariant i <= |cands[0]| && found <= kFound && |report| == found
      invariant forall k :: 0 <= k < |report| ==> Searched(gD, gQ, cands, undirected, report[k])
      invariant found < kFound ==>
        forall m: seq<NodeMatch> :: Searched(gD, gQ, cands, undirected, m) && m[0].nD in cands[0][..i] ==> m in report
    {
      var c := cands[0][i];
      var seed := [NodeMatch(0, c)];
      assert PartialIso(gD, gQ, seed, undirected);
      var f0, r0 := found, report;
      var _, f, r := DoSearch(gD, gQ, cands, kFound, undirected, seed, found, report);
      found, report := f, r;
      SeedReports(gD, gQ, cands, undirected, c, f0, r0, found, report);
      assert cands[0][..i + 1] == cands[0][..i] + [c];
      if found < kFound {
        forall m: seq<NodeMatch> | Searched(gD, gQ, cands, undirected, m) && m[0].nD in cands[0][..i + 1]
          ensures m in report
        {
          if m[0].nD == c {
            assert m[0] == NodeMatch(0, c);
            assert Extension(gD, gQ, cands, undirected, seed, m);
            assert m in report[|r0|..];
          } else {
            assert m in r0;
            assert report[..|r0|] == r0;
          }
        }
      }
      i := i + 1;
    }
  }

  /** The reports of one seeded search are searched matchings. */
  lemma SeedReports(gD: Graph, gQ: Graph, cands: seq<seq<nat>>, undirected: bool, c: nat,
                    f0: nat, r0: seq<seq<NodeMatch>>, f: nat, r: seq<seq<NodeMatch>>)
    requires ValidGraph(gD) && ValidGraph(gQ) && |cands| == NumNodes(gQ) > 0 && c in cands[0]
    requires |r0| == f0 && forall k :: 0 <= k < |r0| ==> Searched(gD, gQ, cands, undirected, r0[k])
    requires ReportsFrom(gD, gQ, cands, [NodeMatch(0, c)], undirected, f0, r0, f, r)
    ensures |r| == f && forall k :: 0 <= k < |r| ==> Searched(gD, gQ, cands, undirected, r[k])
  {
    forall k | 0 <= k < |r|
      ensures Searched(gD, gQ, cands, undirected, r[k])
    {
      if k < |r0| {
        assert r[k] == r[..|r0|][k];
      } else {
        assert r[k][..1] == [NodeMatch(0, c)];
        assert r[k][0] == r[k][..1][0];
      }
    }
  }

  /** A complete consistent matching gives every query node an accepted
      data node; so an empty candidate list rules out any matching, which is
      why the run stops when filtering reports one. */
  lemma CompleteMatchingNeedsCandidates(gD: Graph, gQ: Graph, q: nat, m: seq<NodeMatch>, undirected: bool)
    requires ValidGraph(gD) && ValidGraph(gQ) && q < NumNodes(gQ)
    requires |m| == NumNodes(gQ) && QueryOrdered(m) && PartialIso(gD, gQ, m, undirected)
    ensures exists d: nat :: d < NumNodes(gD) && Accepts(gD, gQ, q, d)
  {
    assert m[q].nQ == q;
    assert Accepts(gD, gQ, q, m[q].nD);
  }

  // ---------------------------------------------------------------------------
  // Checking a matching

  /** A matching passes the check when every pair agrees on labels, no data
      node is shared by two query nodes, no query node has two data nodes,
      and every query edge between matched nodes has its data edge. */
  predicate MatchingOk(gD: Graph, gQ: Graph, m: seq<NodeMatch>)
    requires ValidGraph(gD) && ValidGraph(gQ)
    requires forall i :: 0 <= i < |m| ==> m[i].nQ < NumNodes(gQ) && m[i].nD < NumNodes(gD)
  {
    && (forall i :: 0 <= i < |m| ==> Label(gQ, m[i].nQ) == Label(gD, m[i].nD))
    && (forall i, j :: 0 <= i < |m| && 0 <= j < |m| ==> PairOk(gD, gQ, m[i], m[j]))
  }

  predicate PairOk(gD: Graph, gQ: Graph, a: NodeMatch, b: NodeMatch) {
    && !(a.nQ != b.nQ && a.nD == b.nD)
    && !(a.nQ == b.nQ && a.nD != b.nD)
    && (HasEdge(gQ, a.nQ, b.nQ) ==> HasEdge(gD, a.nD, b.nD))
  }

  /** Compares every pair with every pair and records whether any check
      failed; it does not stop early. */
  method VerifyMatching(gD: Graph, gQ: Graph, m: seq<NodeMatch>) returns (failed: bool)
    requires ValidGraph(gD) && ValidGraph(gQ)
    requires forall i :: 0 <= i < |m| ==> m[i].nQ < NumNodes(gQ) && m[i].nD < NumNodes(gD)
    ensures failed <==> !MatchingOk(gD, gQ, m)
  {
    failed := false;
    var i := 0;
    while i < |m|
      invariant i <= |m|
      invariant !failed <==>
        && (forall k :: 0 <= k < i ==> Label(gQ, m[k].nQ) == Label(gD, m[k].nD))
        && (forall k, j :: 0 <= k < i && 0 <= j < |m| ==> PairOk(gD, gQ, m[k], m[j]))
    {
      if Label(gQ, m[i].nQ) != Label(gD, m[i].nD) {
        failed := true;
      }
      var j := 0;
      var rowOk := true;
      while j < |m|
        invariant j <= |m|
        invariant rowOk <==> forall l :: 0 <= l < j ==> PairOk(gD, gQ, m[i], m[l])
      {
        if m[i].nQ != m[j].nQ && m[i].nD == m[j].nD {
          rowOk := false;
        }
        if m[i].nQ == m[j].nQ && m[i].nD != m[j].nD {
          rowOk := false;
        }
        if HasEdge(gQ, m[i].nQ, m[j].nQ) && !HasEdge(gD, m[i].nD, m[j].nD) {
          rowOk := false;
        }
        j := j + 1;
      }
      failed := failed || !rowOk;
      i := i + 1;
    }
  }

  /** Every matching the search reports passes the check: for directed
      graphs always, for undirected ones when both graphs are symmetric. */
  lemma ReportedMatchingsVerify(gD: Graph, gQ: Graph, m: seq<NodeMatch>, undirected: bool)
    requires ValidGraph(gD) && ValidGraph(gQ)
    requires QueryOrdered(m) && PartialIso(gD, gQ, m, undirected)
    requires undirected ==> Symmetric(gQ) && Symmetric(gD)
    ensures MatchingOk(gD, gQ, m)
  {
    forall i, j | 0 <= i < |m| && 0 <= j < |m|
      ensures PairOk(gD, gQ, m[i], m[j])
    {
      if i < j {
        assert Joined(gD, gQ, m[i], m[j], undirected);
        if undirected && HasEdge(gQ, m[i].nQ, m[j].nQ) {
          assert HasEdge(gQ, m[j].nQ, m[i].nQ);
        }
      } else if j < i {
        assert Joined(gD, gQ, m[j], m[i], undirected);
        if undirected && HasEdge(gQ, m[i].nQ, m[j].nQ) {
          assert HasEdge(gD, m[j].nD, m[i].nD);
        }
      }
    }
  }

  // ---------------------------------------------------------------------------
  // Completeness of the search

  predicate Distinct(s: seq<nat>) {
    forall i, j :: 0 <= i < j < |s| ==> s[i] != s[j]
  }

  /** No node lists the same neighbour twice: at most one edge per ordered
      pair of nodes. */
  predicate NoParallelEdges(g: Graph) {
    && (forall a :: 0 <= a < |g.out| ==> Distinct(g.out[a]))
    && (forall a :: 0 <= a < |g.ins| ==> Distinct(g.ins[a]))
  }

  /** Distinct entries of `src` that the data side of `m` sends, one to one,
      into `dst` are no more numerous than `dst`. */
  lemma {:induction false} InjectionBound(src: seq<nat>, dst: seq<nat>, m: seq<NodeMatch>)
    requires Distinct(src)
    requires forall x :: 0 <= x < |src| ==> src[x] < |m| && m[src[x]].nD in dst
    requires forall a, b :: 0 <= a < |m| && 0 <= b < |m| && a != b ==> m[a].nD != m[b].nD
    ensures |src| <= |dst|
    decreases |src|
  {
    if |src| > 0 {
      var y := m[src[0]].nD;
      var idx :| 0 <= idx < |dst| && dst[idx] == y;
      var dst' := dst[..idx] + dst[idx + 1..];
      forall x | 0 <= x < |src| - 1
        ensures src[1..][x] < |m| && m[src[1..][x]].nD in dst'
      {
        var z := m[src[x + 1]].nD;
        assert z != y;
        var j :| 0 <= j < |dst| && dst[j] == z;
        if j < idx {
          assert dst'[j] == z;
        } else {
          assert dst'[j - 1] == z;
        }
      }
      InjectionBound(src[1..], dst', m);
    }
  }

  /** Ullmann's degree test never rejects a pair of a complete consistent
      matching when the query graph has no parallel edges: the matching sends
      the distinct neighbours of a query node to distinct neighbours of its
      data node. */
  lemma ConsistentMatchingPassesRefinement(gD: Graph, gQ: Graph, m: seq<NodeMatch>, undirected: bool, i: nat)
    requires ValidGraph(gD) && ValidGraph(gQ) && NoParallelEdges(gQ)
    requires undirected ==> Symmetric(gQ) && Symmetric(gD)
    requires |m| == NumNodes(gQ) && QueryOrdered(m) && PartialIso(gD, gQ, m, undirected)
    requires i < |m|
    ensures UllmannKeeps(gD, gQ, i, m[i].nD)
  {
    ReportedMatchingsVerify(gD, gQ, m, undirected);
    forall a, b | 0 <= a < |m| && 0 <= b < |m| && a != b
      ensures m[a].nD != m[b].nD
    {
      assert PairOk(gD, gQ, m[a], m[b]);
    }
    var d := m[i].nD;
    forall x | 0 <= x < |Out(gQ, i)|
      ensures Out(gQ, i)[x] < |m| && m[Out(gQ, i)[x]].nD in Out(gD, d)
    {
      var b := Out(gQ, i)[x];
      assert PairOk(gD, gQ, m[i], m[b]);
    }
    InjectionBound(Out(gQ, i), Out(gD, d), m);
    forall x | 0 <= x < |In(gQ, i)|
      ensures In(gQ, i)[x] < |m| && m[In(gQ, i)[x]].nD in In(gD, d)
    {
      var b := In(gQ, i)[x];
      assert HasEdge(gQ, b, i);
      assert PairOk(gD, gQ, m[b], m[i]);
    }
    InjectionBound(In(gQ, i), In(gD, d), m);
  }

  /** With complete candidate lists (as FilterCandidates builds them) and a
      query graph without parallel edges, every complete consistent matching
      is one the search reaches; so a search that ends below `kFound` has
      reported all of them. */
  lemma ConsistentMatchingIsSearched(gD: Graph, gQ: Graph, cands: seq<seq<nat>>, undirected: bool, m: seq<NodeMatch>)
    requires ValidGraph(gD) && ValidGraph(gQ) && CandidatesOk(gD, gQ, cands) && NumNodes(gQ) > 0
    requires forall q, d: nat :: 0 <= q < |cands| && d < NumNodes(gD) && Accepts(gD, gQ, q, d) ==> d in cands[q]
    requires NoParallelEdges(gQ) && (undirected ==> Symmetric(gQ) && Symmetric(gD))
    requires |m| == NumNodes(gQ) && QueryOrdered(m) && PartialIso(gD, gQ, m, undirected)
    ensures Searched(gD, gQ, cands, undirected, m)
  {
    forall i | 0 <= i < |m|
      ensures m[i].nD in cands[i] && UllmannKeeps(gD, gQ, i, m[i].nD)
    {
      ConsistentMatchingPassesRefinement(gD, gQ, m, undirected, i);
    }
    assert m[..1] == [m[0]];
  }

  /** Without the no-parallel-edges hypothesis the degree test prunes valid
      matchings: a query with two parallel edges 0 -> 1 maps consistently
      onto a data graph with the single edge 0 -> 1, yet query node 0 has
      out-degree 2 and data node 0 only 1. */
  lemma ParallelQueryEdgePrunesMatching()
    ensures var gQ := Graph("ab", [[1, 1], []], [[], [0, 0]]);
            var gD := Graph("ab", [[1], []], [[], [0]]);
            var m := [NodeMatch(0, 0), NodeMatch(1, 1)];
            && ValidGraph(gQ) && ValidGraph(gD) && |m| == NumNodes(gQ)
            && QueryOrdered(m) && PartialIso(gD, gQ, m, false)
            && !UllmannKeeps(gD, gQ, 0, m[0].nD)
  {
    var gQ := Graph("ab", [[1, 1], []], [[], [0, 0]]);
    var gD := Graph("ab", [[1], []], [[], [0]]);
    var m := [NodeMatch(0, 0), NodeMatch(1, 1)];
    assert !HasEdge(gQ, 0, 0) && !HasEdge(gQ, 1, 0) && !HasEdge(gQ, 1, 1);
    assert Joined(gD, gQ, m[0], m[1], false);
  }
}
